=== FILE: README.md ===
# TCP peer-to-peer client of the Merlin agent, in Dafny

This project models the TCP client the Merlin agent uses to talk to its
upstream peer (`clients/tcp/tcp.go`). It covers the whole `Client`
record and its operations:

- `New` builds a client from its `Config`.
- `Connect` binds and accepts, or dials, depending on the mode.
- `Construct` runs the transformer pipeline outwards (last transformer
  first) and `Deconstruct` runs it inwards until a `Base` message appears.
- `Send` pads, constructs, wraps the result in a delegate envelope,
  reconnects if needed, writes, reads and deconstructs.
- `Authenticate` and `Initial` drive the authenticator until it reports
  authenticated, rotating the secret.
- `Get`, `Set` and `String` are the accessors.

The model is functional. The client is an immutable record and every
operation returns the updated record with its result. Everything the
client calls but does not own comes in as a parameter:

- the sockets are a record of outcomes, and the calls made are logged so
  that their order can be stated;
- the transformers are pairs of functions of the secret;
- the authenticator is a script of its answers, one round each;
- SHA-256, gob encoding, `strconv.Atoi`, `net.ResolveTCPAddr` and the
  random padding are values or functions passed in.

Modules, one per part of the client:

| file | module | contents |
|---|---|---|
| wrappers.dfy | Wrappers | `Option`, `Result` |
| strings.dfy | Strings | bytes, `strings.ToLower`, `strings.Split`, `strconv.Itoa`, UTF-8 |
| messages.dfy | Messages | UUIDs, the `Base` message, the delegate envelope |
| errors.dfy | Errors | one constructor per error the client returns |
| pipeline.dfy | Pipeline | `Construct`, `Deconstruct` and their round trip |
| client.dfy | TcpClient | the `Client` record, `String`, `Get`, `Set` |
| connection.dfy | Connection | `Connect` |
| exchange.dfy | Exchange | `Send` |
| authenticate.dfy | Authentication | `Authenticate`, `Initial` |
| config.dfy | Configuration | `New` |

Behaviour the model keeps although a reader may not expect it:

- With no transformers, `Construct` returns empty data and no error.
  `Pipeline.Construct` does the same.
- A transformer's `Deconstruct` error is returned as is, not wrapped.
  `Pipeline.Deconstruct` returns it as `DeconstructStage(cause)`.
- A padding that does not parse still returns the half-built client
  along with the error. `Configuration.New` returns both.
- A failed `Accept` or `Dial` still overwrites the connection slot with
  Go's nil. `Connection.Connect` clears the slot.

## Model

| member | source | states |
|---|---|---|
| Strings.Split | clients/tcp/tcp.go:144 | The parts never contain the separator, there is at least one, and joining them with the separator gives back the input. |
| Strings.SplitCount | clients/tcp/tcp.go:144 | There is one more part than there are separators in the input. |
| Strings.Itoa | clients/tcp/tcp.go:402 | The decimal text is well formed and reads back as the number, sign included. |
| Strings.Utf8 | clients/tcp/tcp.go:420 | The byte form of a string is never shorter than the string and is empty only for the empty string. It has exactly one byte per character exactly when every character is ASCII, and then each byte is that character's code. |
| Strings.DecodeEncodeRune | clients/tcp/tcp.go:420 | The UTF-8 decoder reads back each code point the encoder wrote, and its length, whatever bytes follow. |
| Strings.Utf8RoundTrip | clients/tcp/tcp.go:420 | Decoding the byte form of a string gives the string back. |
| Strings.Utf8Injective | clients/tcp/tcp.go:420 | Two strings with the same byte form are the same string, so a secret set from text determines that text. |
| Pipeline.Construct | clients/tcp/tcp.go:272-285 | An empty pipeline yields empty data without error, and the only error is a wrapped stage failure. |
| Pipeline.ConstructOrder | clients/tcp/tcp.go:273-279 | Construct succeeds with some data exactly when there is a chain of stage outputs: the last transformer takes the message, each earlier one takes the next one's bytes, and the first one's output is the data. |
| Pipeline.ChainGivesOutbound | clients/tcp/tcp.go:273-283 | Any such chain of successful stage outputs determines the pipeline's result. |
| Pipeline.OutboundGivesChain | clients/tcp/tcp.go:273-283 | A successful run yields the chain of stage outputs that produced it. |
| Pipeline.OutboundSplits | clients/tcp/tcp.go:273-283 | Running a pipeline equals running its back half, then its front half on the bytes the back half produced. |
| Pipeline.ConstructStopsAtFailure | clients/tcp/tcp.go:280-282 | Once a later transformer fails, the earlier transformers make no difference to the result. |
| Pipeline.OutboundOne | clients/tcp/tcp.go:274-282 | A one-stage pipeline returns the stage's output, or the stage's error wrapped. |
| Pipeline.RunConstruct | clients/tcp/tcp.go:272-285 | The countdown loop over the transformers computes the same result as the recursive definition. |
| Pipeline.Deconstruct | clients/tcp/tcp.go:289-311 | The "no Base message" error occurs exactly when every stage passed bytes or a string on; the only other errors are a stage's own error and an unhandled output type; no transformers always gives "no Base message". |
| Pipeline.InboundSplits | clients/tcp/tcp.go:292-309 | Deconstructing through a pipeline equals deconstructing through its front half, then its back half, unless the front half already stopped. |
| Pipeline.DeconstructStopsAt | clients/tcp/tcp.go:295-307 | The first stage that returns a message or an error decides the result; the stages after it are never consulted. |
| Pipeline.DeconstructFindsBase | clients/tcp/tcp.go:303-305 | A successful Deconstruct names the stage that produced the Base message and the bytes that stage was given. |
| Pipeline.RunDeconstruct | clients/tcp/tcp.go:289-311 | The loop over the transformers computes the same result as the recursive definition. |
| Pipeline.UnwrapBytes | clients/tcp/tcp.go:292-302 | If every stage undoes its own construction, deconstructing constructed bytes hands back the original bytes. |
| Pipeline.RoundTrip | clients/tcp/tcp.go:272-311 | If every stage undoes its own construction, a non-empty pipeline deconstructs what it constructed into the original message. |
| TcpClient.ModeOf | clients/tcp/tcp.go:95-102 | Every mode name selects BIND or REVERSE, and REVERSE exactly when the name is "tcp-reverse" in any letter case. |
| TcpClient.String | clients/tcp/tcp.go:428-437 | BIND is named "tcp-bind" and REVERSE "tcp-reverse", and the name is "tcp-unhandled" exactly when the mode is neither. |
| TcpClient.ModeNameRoundTrip | clients/tcp/tcp.go:95-102 | For a handled mode, reading back the name String reports gives the same mode. |
| TcpClient.Get | clients/tcp/tcp.go:397-408 | The "paddingmax" key, in any letter case, gives a decimal numeral whose value is the padding maximum; "protocol" gives the mode name; any other key gives the unknown-setting text naming the key. |
| TcpClient.Set | clients/tcp/tcp.go:411-425 | Only the padding maximum and the secret can change, each only under its own key. The padding takes Atoi's value even when Atoi fails. The secret becomes the value's bytes. Atoi's error is returned as is. Any other key is an unknown-setting error naming the key, and leaves the client unchanged. No error occurs exactly for "secret", or for "paddingmax" with a value that parses. |
| TcpClient.GetAfterSet | clients/tcp/tcp.go:397-425 | After a successful Set of the padding maximum, Get reads the new value back and still reports the same protocol. |
| Connection.Connect | clients/tcp/tcp.go:239-268 | Settings and secret are untouched. Success means a connection is open, and the last socket call opened it. In BIND mode the client listens only when it has no listener, reuses a listener it has, and stops at a listen failure. Otherwise it accepts and keeps what Accept returned, and its calls are exactly Listen then Accept, or Accept alone; it never dials. In REVERSE mode it only dials. Any other mode makes no socket call and fails with "unhandled mode", which happens only for such a mode. |
| Exchange.Truncate | clients/tcp/tcp.go:370-385 | The reply handed to Deconstruct is a prefix of what arrived, at most 500000 bytes long, and is all of it when it fits. |
| Exchange.RedialCalls | clients/tcp/tcp.go:346-372 | After a dropped connection, the write is made exactly when the reconnection succeeded, right after its calls and after an Accept or Dial. The read is made exactly when the write succeeded, and it is the last call. |
| Exchange.Send | clients/tcp/tcp.go:316-394 | With a positive padding maximum the padding is shorter than the maximum, and without one the message is unchanged. A construct or encoding failure is the result: no socket call is made and nothing changes. A failed reconnection is the result, with only Connect's calls and effects, and nothing is written. The encoded envelope is written exactly when a connection is open or the reconnection succeeded, first or right after the reconnection's calls. A write error is the result. The read is made exactly when the write succeeded. End of stream clears the connection and changes nothing else; any other read error keeps it. After a successful reconnection the client is the one Connect left, listener included, with the connection cleared again on end of stream. A received reply, cut to what one read holds, is deconstructed: a message it yields is the one result, and a Deconstruct error is the result, wrapped. |
| Exchange.ListenerKept | clients/tcp/tcp.go:241-257 | A client that has a listener keeps it through any Send, and Send never listens again. |
| Exchange.ReconnectAfterReset | clients/tcp/tcp.go:346-354 | After a Send that saw the peer reset, the client has no connection. The next Send writes only after its Connect succeeded, right after Connect's calls. |
| Authentication.Play | clients/tcp/tcp.go:200-234 | One round: an authenticator error or a key error ends the loop with that error. The secret is replaced only when the round is authenticated with a non-empty key. An authenticated round always ends the loop. Those two errors leave the client untouched and log no reply. Otherwise the round is one Send of the authenticator's message. A Send failure ends the loop with that error. A successful Send ends the loop exactly when the round was authenticated, and otherwise the loop goes on with the reply it got. A round past the two checks ends in a Send error exactly when it logged no reply. |
| Authentication.PlayGoesOn | clients/tcp/tcp.go:201-234 | The loop goes on after a round exactly when the authenticator did not report authenticated and the round's Send succeeded. |
| Authentication.PlayStaysConnected | clients/tcp/tcp.go:219-223 | A round on an open connection makes no new listener or connection, keeps the listener, and keeps the connection unless it met end of stream. |
| Authentication.Rounds | clients/tcp/tcp.go:200-235 | Settings are untouched, and there are never more rounds than the authenticator answered. The first round is handed the starting message, and the loop stops early only on an error or on authentication. |
| Authentication.RoundsThread | clients/tcp/tcp.go:219-229 | Every round but the last was unauthenticated and sent under the unchanged secret. It produced one reply, which is the next round's message. |
| Authentication.RoundsLast | clients/tcp/tcp.go:201-234 | The last round decides the secret and the status. An authenticator error or a key error is the status. If the round got past both, the status is a Send error exactly when it logged no reply. Authenticated means the authenticator said so, gave a key, and its Send returned one reply. |
| Authentication.RoundsAuthenticated | clients/tcp/tcp.go:206-234 | A last round the authenticator reported authenticated, with its key given and its reply received, ends the loop with authentication. |
| Authentication.RoundsRanOut | clients/tcp/tcp.go:219-234 | A last round that was not authenticated but received its reply stopped the loop only because the script ran out, after every round of it. |
| Authentication.RoundsFailure | clients/tcp/tcp.go:201-224 | A failed loop failed on an error its last round met: the authenticator's, the key's, or a Send error in a round that logged no reply. |
| Authentication.RoundsStayConnected | clients/tcp/tcp.go:200-235 | A loop started on an open connection keeps to it: no round makes a new listener or connection, the listener stays, and the connection is still there unless a round met end of stream. |
| Authentication.Authenticate | clients/tcp/tcp.go:192-236 | Every round is sent under the digest of the PSK, except that an authenticated round with a non-empty key is sent under that key. The secret left behind is one of the two and is never empty. Authenticated means the last round was authenticated, gave a key and got one reply. Every round before the last went on, handing its one reply to the next, and an unfinished run used the whole script. |
| Authentication.Initial | clients/tcp/tcp.go:177-188 | A connect failure is returned wrapped, and no authentication round is run. Otherwise the client Connect left authenticates from the empty message on that connection: no round makes a new listener or connection, Connect's listener stays, and its connection stays unless a round met end of stream; every round is sent under the PSK's digest or a rotated key, the rounds before the last each hand their one reply on, and authenticated means the last round was authenticated, gave a key and got one reply. |
| Configuration.AuthOf | clients/tcp/tcp.go:134-142 | "opaque" and "none", in any letter case, select their authenticator, and any other name selects none. |
| Configuration.KindOf | clients/tcp/tcp.go:147-158 | The four transformer names select their transformers, in any letter case. |
| Configuration.KindsOf | clients/tcp/tcp.go:145-165 | Succeeds exactly when every name is known, and then maps each name to its transformer in order. Otherwise it reports the first unknown name. |
| Configuration.New | clients/tcp/tcp.go:83-174 | Each error happens exactly when the checks before it passed and its own check failed, in the source's order: agent ID, listener ID, address given, address resolves, padding parses, authenticator known, transformers known. The unknown transformer reported is the first one. Only a bad padding returns a client along with its error; it is the client built so far, with Atoi's value and no authenticator or transformers. Every client returned carries the first address, both IDs, the PSK, the PSK's digest as secret and the selected mode, with no socket. A complete client also has the padding, the authenticator and one transformer per comma-separated name. |
| Configuration.NewModeIsHandled | clients/tcp/tcp.go:95-102 | A client New returns is always in a mode String names, and Connect never rejects its mode. |
| Configuration.NewThenGet | clients/tcp/tcp.go:95-133 | On a client New built, Get reports the protocol chosen by the configured mode name, and the padding maximum as configured. |

## Left out

- Real sockets, addresses and timing are not modelled. Listen, Accept, Dial, Write and Read are outcomes given as input, and `Net` and `SendIo` say which. Only whether a connection slot is filled is modelled.
- The concrete transformers (gob, AES, JWE) and authenticators (OPAQUE, none) are not modelled. They are functions and scripts given as input, and only their names and their place in the pipeline are modelled.
- SHA-256, gob encoding, `strconv.Atoi`, `net.ResolveTCPAddr` and the random padding are inputs. The random padding only has to be shorter than the padding maximum, which is all `rand.Intn` promises.
- Logging (`cli.Message`) is left out: it has no effect on the client.
- The text of error messages is not modelled. Each error is a constructor carrying the cause it wraps.
- The `Version` and other fields of `messages.Base` that the client never reads are left out.
- Deconstruct's zero `Base` alongside an error is not modelled: errors are `Err` results.
- Authentication.Rounds: how many rounds an authenticator takes is bounded by the length of its script. A script that runs out ends with `Unfinished`, where the source would keep looping.
- TcpClient.Client: `paddingMax` is an unbounded integer. Go's `int` is 64 bits wide, but `Atoi` already clamps out-of-range values, so only that clamping (inside the given `Atoi`) is affected.
- Strings.ToLower: only the letters whose lower case is ASCII are folded (ASCII letters, U+0130 and U+212A). Other letters keep their case, which changes no comparison with the ASCII names the client matches.
- Strings.Utf8: the PSK, setting values, names and mode strings are modelled as Unicode text. A Go string may hold any bytes, and the byte sequences that are not valid UTF-8 cannot be written as Dafny strings, so they are not modelled.

=== FILE: authenticate.dfy ===
/** `Client.Authenticate` and `Client.Initial`: the loop that drives an
    authenticator to completion over the transport. The authenticator is
    outside the model; its answers, round by round, are an input script, and
    the length of the script bounds how many rounds are modelled. */
module Authentication {
  import opened Wrappers
  import opened Strings
  import opened Messages
  import opened Errors
  import opened Pipeline
  import opened TcpClient
  import opened Connection
  import opened Exchange

  /** The authenticator's answer to one call of its Authenticate. */
  datatype AuthReply = AuthReply(msg: Base, authenticated: bool)

  /** What one round takes from outside the model: the authenticator's
      answer, the key its Secret returns (asked for only once it reports
      authenticated), and the I/O of the round's Send. */
  datatype Round = Round(reply: Result<AuthReply, Cause>, key: Result<Bytes, Cause>, io: SendIo)

  /** One round as it happened: the message the authenticator was handed,
      the secret in force when its answer was sent, the replies Send
      returned (none when the round ended before Send succeeded) and the
      socket calls Send made (none when the round ended before Send). */
  datatype RoundLog = RoundLog(input: Base, secret: Bytes, replies: seq<Base>, calls: seq<SocketCall>)

  datatype Status = Authenticated | Failed(error: Error) | Unfinished

  /** `Unfinished` means the script ran out before the authenticator
      reported authenticated or an error. */
  datatype AuthOutcome = AuthOutcome(client: Client, status: Status, log: seq<RoundLog>)

  /** Every round's padding fits (see `PaddingFits`). */
  predicate ScriptFits(paddingMax: int, script: seq<Round>)
  {
    |script| == 0 || (PaddingFits(paddingMax, script[0].io.padding) && ScriptFits(paddingMax, script[1..]))
  }

  /** A round replaces the secret: authenticated, with a non-empty key. */
  predicate Rotates(round: Round)
  {
    round.reply.Ok? && round.reply.value.authenticated && round.key.Ok? && |round.key.value| > 0
  }

  /** The client a round sends with: its secret replaced when the round
      rotates it. */
  function Keyed(c: Client, round: Round): Client
  {
    if Rotates(round) then c.(secret := round.key.value) else c
  }

  /** One round's effect: the client after it, what it logged, the status
      it ended the loop with (`None` when the loop goes on) and the message
      the next round starts from. */
  datatype Turn = Turn(client: Client, entry: RoundLog, stop: Option<Status>, next: Base)

  /** One iteration of the loop in `Client.Authenticate`. */
  function Play(c: Client, msg: Base, impl: TransformKind -> Stage, round: Round): (t: Turn)
    requires PaddingFits(c.paddingMax, round.io.padding)
    ensures SameSettings(c, t.client)
    ensures t.entry.input == msg
    ensures t.entry.secret == (if Rotates(round) then round.key.value else c.secret)
    ensures t.client.secret == t.entry.secret
    ensures round.reply.Err? ==> t.stop == Some(Failed(AuthenticatorFailed(round.reply.error)))
    ensures round.reply.Ok? && round.reply.value.authenticated && round.key.Err? ==>
              t.stop == Some(Failed(SecretFailed(round.key.error)))
    ensures t.stop == Some(Authenticated) ==> round.reply.Ok? && round.reply.value.authenticated && round.key.Ok?
    ensures round.reply.Ok? && round.reply.value.authenticated ==> t.stop.Some?
    ensures t.stop != Some(Unfinished)
    // The authenticator's and the key's errors come before any Send.
    ensures round.reply.Err? || (round.reply.value.authenticated && round.key.Err?) ==>
              t.client == c && t.entry.replies == [] && t.entry.calls == []
    // A round past them ends in a Send error exactly when it logged no reply.
    ensures round.reply.Ok? && !(round.reply.value.authenticated && round.key.Err?) ==>
              (|t.entry.replies| == 0 <==> t.stop.Some? && t.stop.value.Failed? && IsSendError(t.stop.value.error))
    ensures t.stop == Some(Authenticated) ==> |t.entry.replies| == 1
    ensures t.stop.None? ==>
              && round.reply.Ok? && !round.reply.value.authenticated
              && |t.entry.replies| == 1
              && t.next == t.entry.replies[0]
    // Past the authenticator and the key, the round is one Send of the
    // authenticator's message: its failure ends the loop with its error, and
    // its success ends the loop exactly when the round was authenticated.
    ensures round.reply.Ok? && !(round.reply.value.authenticated && round.key.Err?) ==>
              var sent := Send(Keyed(c, round), round.reply.value.msg, impl, round.io);
              && t.client == sent.client && t.entry.calls == sent.calls
              && (sent.result.Err? ==> t.stop == Some(Failed(sent.result.error)) && t.entry.replies == [])
              && (sent.result.Ok? ==>
                    t.entry.replies == sent.result.value && (t.stop == Some(Authenticated) <==> round.reply.value.authenticated))
  {
    match round.reply
    case Err(cause) => Turn(c, RoundLog(msg, c.secret, [], []), Some(Failed(AuthenticatorFailed(cause))), msg)
    case Ok(reply) =>
      if reply.authenticated && round.key.Err? then
        Turn(c, RoundLog(msg, c.secret, [], []), Some(Failed(SecretFailed(round.key.error))), msg)
      else
        var c1 := Keyed(c, round);
        var sent := Send(c1, reply.msg, impl, round.io);
        if sent.result.Err? then
          Turn(sent.client, RoundLog(msg, c1.secret, [], sent.calls), Some(Failed(sent.result.error)), reply.msg)
        else
          var next := if |sent.result.value| > 0 then sent.result.value[0] else reply.msg;
          Turn(sent.client, RoundLog(msg, c1.secret, sent.result.value, sent.calls),
               if reply.authenticated then Some(Authenticated) else None, next)
  }

  /** The loop goes on after a round exactly when the authenticator did
      not report authenticated and the round's Send succeeded. */
  lemma PlayGoesOn(c: Client, msg: Base, impl: TransformKind -> Stage, round: Round)
    requires PaddingFits(c.paddingMax, round.io.padding)
    ensures Play(c, msg, impl, round).stop.None? <==>
              round.reply.Ok? && !round.reply.value.authenticated && Send(c, round.reply.value.msg, impl, round.io).result.Ok?
  {
  }

  /** A round on an open connection uses that connection: its Send makes
      no new listener or connection, the listener stays, and only end of
      stream drops the connection. */
  lemma PlayStaysConnected(c: Client, msg: Base, impl: TransformKind -> Stage, round: Round)
    requires PaddingFits(c.paddingMax, round.io.padding)
    requires c.connection.Some?
    ensures var t := Play(c, msg, impl, round);
            && Reuses(t.entry.calls)
            && t.client.listener == c.listener
            && (t.stop != Some(Failed(PeerReset)) ==> t.client.connection == c.connection)
  {
  }

  /** The loop of `Client.Authenticate`, from the current client and message. */
  function Rounds(c: Client, msg: Base, impl: TransformKind -> Stage, script: seq<Round>): (o: AuthOutcome)
    requires ScriptFits(c.paddingMax, script)
    ensures SameSettings(c, o.client)
    ensures |o.log| <= |script|
    ensures |script| > 0 ==> |o.log| > 0 && o.log[0].input == msg
    ensures |script| == 0 ==> o == AuthOutcome(c, Unfinished, [])
    ensures o.status.Unfinished? ==> |o.log| == |script|
    decreases |script|
  {
    if |script| == 0 then AuthOutcome(c, Unfinished, [])
    else
      var t := Play(c, msg, impl, script[0]);
      if t.stop.Some? then AuthOutcome(t.client, t.stop.value, [t.entry])
      else
        var rest := Rounds(t.client, t.next, impl, script[1..]);
        AuthOutcome(rest.client, rest.status, [t.entry] + rest.log)
  }

  /** Every round but the last was unauthenticated and completed, was sent
      under the secret the loop started with, and handed its one reply on as
      the next round's message. */
  lemma {:induction false} RoundsThread(c: Client, msg: Base, impl: TransformKind -> Stage, script: seq<Round>)
    requires ScriptFits(c.paddingMax, script)
    ensures var o := Rounds(c, msg, impl, script);
            forall i :: 0 <= i < |o.log| - 1 ==>
              && script[i].reply.Ok? && !script[i].reply.value.authenticated
              && o.log[i].secret == c.secret
              && |o.log[i].replies| == 1
              && o.log[i + 1].input == o.log[i].replies[0]
    decreases |script|
  {
    if |script| > 0 {
      var t := Play(c, msg, impl, script[0]);
      if t.stop.None? {
        var o := Rounds(c, msg, impl, script);
        var rest := Rounds(t.client, t.next, impl, script[1..]);
        assert o.log == [t.entry] + rest.log;
        RoundsThread(t.client, t.next, impl, script[1..]);
        forall i | 0 <= i < |o.log| - 1
          ensures && script[i].reply.Ok? && !script[i].reply.value.authenticated
                  && o.log[i].secret == c.secret
                  && |o.log[i].replies| == 1
                  && o.log[i + 1].input == o.log[i].replies[0]
        {
          if i > 0 {
            assert o.log[i] == rest.log[i - 1] && o.log[i + 1] == rest.log[i];
            assert script[i] == script[1..][i - 1];
          }
        }
      }
    }
  }

  /** The last round decides the secret and the status. */
  lemma {:induction false} RoundsLast(c: Client, msg: Base, impl: TransformKind -> Stage, script: seq<Round>)
    requires ScriptFits(c.paddingMax, script)
    ensures var o := Rounds(c, msg, impl, script);
            |o.log| > 0 ==>
              var k := |o.log| - 1;
              && o.client.secret == o.log[k].secret
              && o.log[k].secret == (if Rotates(script[k]) then script[k].key.value else c.secret)
              && (script[k].reply.Err? ==> o.status == Failed(AuthenticatorFailed(script[k].reply.error)))
              && (script[k].reply.Ok? && script[k].reply.value.authenticated && script[k].key.Err? ==>
                    o.status == Failed(SecretFailed(script[k].key.error)))
              && (o.status.Authenticated? ==>
                    script[k].reply.Ok? && script[k].reply.value.authenticated && script[k].key.Ok?)
              && (script[k].reply.Ok? && script[k].reply.value.authenticated ==> !o.status.Unfinished?)
              // A round past the authenticator and the key stops the loop
              // with Send's error exactly when it got no reply.
              && (script[k].reply.Ok? && !(script[k].reply.value.authenticated && script[k].key.Err?) ==>
                    (|o.log[k].replies| == 0 <==> o.status.Failed? && IsSendError(o.status.error)))
              && (o.status.Authenticated? ==> |o.log[k].replies| == 1)
    decreases |script|
  {
    if |script| > 0 {
      var t := Play(c, msg, impl, script[0]);
      if t.stop.None? {
        RoundsLast(t.client, t.next, impl, script[1..]);
      }
    }
  }

  /** A last round that the authenticator reported authenticated, that
      had its key and that got its reply, authenticates the client. */
  lemma {:induction false} RoundsAuthenticated(c: Client, msg: Base, impl: TransformKind -> Stage, script: seq<Round>)
    requires ScriptFits(c.paddingMax, script)
    ensures var o := Rounds(c, msg, impl, script);
            |o.log| > 0 ==>
              var k := |o.log| - 1;
              script[k].reply.Ok? && script[k].reply.value.authenticated && script[k].key.Ok? && |o.log[k].replies| == 1 ==>
                o.status == Authenticated
    decreases |script|
  {
    if |script| > 0 {
      var t := Play(c, msg, impl, script[0]);
      if t.stop.None? {
        RoundsAuthenticated(t.client, t.next, impl, script[1..]);
      }
    }
  }

  /** A last round that was not authenticated but got its reply stopped
      the loop only because the script ran out. */
  lemma {:induction false} RoundsRanOut(c: Client, msg: Base, impl: TransformKind -> Stage, script: seq<Round>)
    requires ScriptFits(c.paddingMax, script)
    ensures var o := Rounds(c, msg, impl, script);
            |o.log| > 0 ==>
              var k := |o.log| - 1;
              script[k].reply.Ok? && !script[k].reply.value.authenticated && |o.log[k].replies| == 1 ==>
                o.status == Unfinished && |o.log| == |script|
    decreases |script|
  {
    if |script| > 0 {
      var t := Play(c, msg, impl, script[0]);
      if t.stop.None? {
        RoundsRanOut(t.client, t.next, impl, script[1..]);
      }
    }
  }

  /** A failed loop failed on an error its last round met: the
      authenticator's, the key's, or Send's. */
  lemma {:induction false} RoundsFailure(c: Client, msg: Base, impl: TransformKind -> Stage, script: seq<Round>)
    requires ScriptFits(c.paddingMax, script)
    ensures var o := Rounds(c, msg, impl, script);
            o.status.Failed? ==>
              && |o.log| > 0
              && var k := |o.log| - 1;
                 || (script[k].reply.Err? && o.status.error == AuthenticatorFailed(script[k].reply.error))
                 || (script[k].reply.Ok? && script[k].reply.value.authenticated && script[k].key.Err?
                     && o.status.error == SecretFailed(script[k].key.error))
                 || (|o.log[k].replies| == 0 && IsSendError(o.status.error))
    decreases |script|
  {
    if |script| > 0 {
      var t := Play(c, msg, impl, script[0]);
      if t.stop.None? {
        RoundsFailure(t.client, t.next, impl, script[1..]);
      }
    }
  }

  /** The loop keeps to the connection it started with: no round makes a
      new listener or connection, the listener stays, and the connection
      is still there unless a round met end of stream. */
  lemma {:induction false} RoundsStayConnected(c: Client, msg: Base, impl: TransformKind -> Stage, script: seq<Round>)
    requires ScriptFits(c.paddingMax, script)
    ensures var o := Rounds(c, msg, impl, script);
            c.connection.Some? ==>
            && (forall i :: 0 <= i < |o.log| ==> Reuses(o.log[i].calls))
            && o.client.listener == c.listener
            && (o.status != Failed(PeerReset) ==> o.client.connection == c.connection)
    decreases |script|
  {
    if |script| > 0 && c.connection.Some? {
      var t := Play(c, msg, impl, script[0]);
      PlayStaysConnected(c, msg, impl, script[0]);
      if t.stop.None? {
        RoundsStayConnected(t.client, t.next, impl, script[1..]);
      }
    }
  }

  /** `Client.Authenticate`: resets the secret to the digest of the PSK,
      then runs the loop. */
  function Authenticate(c: Client, msg: Base, sha256: Bytes -> Digest, impl: TransformKind -> Stage, script: seq<Round>)
    : (o: AuthOutcome)
    requires ScriptFits(c.paddingMax, script)
    ensures SameSettings(c, o.client)
    ensures |o.log| <= |script|
    ensures |script| > 0 ==> |o.log| > 0 && o.log[0].input == msg
    // Every round is sent under the PSK digest, except that the
    // authenticated round, given a non-empty key, is sent under that key.
    ensures forall i :: 0 <= i < |o.log| ==>
              o.log[i].secret == (if Rotates(script[i]) then script[i].key.value else sha256(Utf8(c.psk)))
    ensures o.client.secret == sha256(Utf8(c.psk)) ||
            (|o.log| > 0 && Rotates(script[|o.log| - 1]) && o.client.secret == script[|o.log| - 1].key.value)
    ensures o.status.Authenticated? ==>
              && |o.log| > 0
              && var k := |o.log| - 1;
                 && script[k].key.Ok?
                 && o.client.secret == (if |script[k].key.value| > 0 then script[k].key.value else sha256(Utf8(c.psk)))
                 && script[k].reply.Ok? && script[k].reply.value.authenticated && |o.log[k].replies| == 1
    ensures o.status.Unfinished? ==> |o.log| == |script|
    // The rounds before the last went on, each handing its reply to the next.
    ensures forall i :: 0 <= i < |o.log| - 1 ==>
              && script[i].reply.Ok? && !script[i].reply.value.authenticated
              && |o.log[i].replies| == 1 && o.log[i + 1].input == o.log[i].replies[0]
    ensures |o.client.secret| > 0
  {
    var start := c.(secret := sha256(Utf8(c.psk)));
    RoundsThread(start, msg, impl, script);
    RoundsLast(start, msg, impl, script);
    Rounds(start, msg, impl, script)
  }

  /** `Client.Initial`: connect, then authenticate from the empty message. */
  function Initial(c: Client, net: Net, sha256: Bytes -> Digest, impl: TransformKind -> Stage, script: seq<Round>)
    : (o: AuthOutcome)
    requires ScriptFits(c.paddingMax, script)
    ensures Connect(c, net).err.Some? ==>
              o == AuthOutcome(Connect(c, net).client, Failed(InitialConnect(Connect(c, net).err.value)), [])
    ensures Connect(c, net).err.None? && |script| > 0 ==> |o.log| > 0 && o.log[0].input == EmptyBase
    ensures Connect(c, net).err.None? ==> SameSettings(c, o.client)
    ensures |o.log| <= |script|
    // Once connected, the rounds run under the PSK digest or a rotated key,
    // and authentication is reported only after an authenticated round that
    // got its reply.
    ensures Connect(c, net).err.None? ==>
              forall i :: 0 <= i < |o.log| ==>
                o.log[i].secret == (if Rotates(script[i]) then script[i].key.value else sha256(Utf8(c.psk)))
    ensures o.status.Authenticated? ==>
              && |o.log| > 0
              && var k := |o.log| - 1;
                 && script[k].reply.Ok? && script[k].reply.value.authenticated && script[k].key.Ok?
                 && |o.log[k].replies| == 1
                 && o.client.secret == (if |script[k].key.value| > 0 then script[k].key.value else sha256(Utf8(c.psk)))
    ensures o.status.Unfinished? ==> |o.log| == |script|
    ensures Connect(c, net).err.None? ==>
              forall i :: 0 <= i < |o.log| - 1 ==>
                && script[i].reply.Ok? && !script[i].reply.value.authenticated
                && |o.log[i].replies| == 1 && o.log[i + 1].input == o.log[i].replies[0]
    // Authentication runs on the connection Connect made: no round makes a
    // new listener or connection, and Connect's listener and connection
    // are kept unless a round met end of stream.
    ensures Connect(c, net).err.None? ==>
              && (forall i :: 0 <= i < |o.log| ==> Reuses(o.log[i].calls))
              && o.client.listener == Connect(c, net).client.listener
              && (o.status != Failed(PeerReset) ==> o.client.connection == Connect(c, net).client.connection)
  {
    var co := Connect(c, net);
    if co.err.Some? then AuthOutcome(co.client, Failed(InitialConnect(co.err.value)), [])
    else
      RoundsStayConnected(co.client.(secret := sha256(Utf8(co.client.psk))), EmptyBase, impl, script);
      Authenticate(co.client, EmptyBase, sha256, impl, script)
  }
}

=== FILE: client.dfy ===
/** The `Client` record of the TCP peer-to-peer client, and its small
    accessors: `String`, `Get` and `Set`. */
module TcpClient {
  import opened Wrappers
  import opened Strings
  import opened Messages
  import opened Errors

  /** The client's communication modes (`client.mode`). */
  const BIND := 0
  const REVERSE := 1

  /** The authenticator packages `New` accepts. */
  datatype AuthKind = Opaque | NoAuth

  /** The transformers `New` accepts, by name. */
  datatype TransformKind = GobBase | GobString | Aes | Jwe

  /** Opaque socket handles; only whether a slot holds one matters. */
  datatype Conn = Conn(id: nat)
  datatype Listener = Listener(id: nat)

  datatype Client = Client(
    address: string,
    agentId: Uuid,
    authenticator: Option<AuthKind>,
    connection: Option<Conn>,      // None: not currently connected
    listener: Option<Listener>,    // only ever set in BIND mode
    listenerId: Uuid,
    paddingMax: int,
    psk: string,
    secret: Bytes,                 // the key every transformer is given
    transformers: seq<TransformKind>,
    mode: int)

  /** Everything but the secret and the two socket slots: the fields only
      `New` and `Set` write. */
  predicate SameSettings(a: Client, b: Client)
  {
    && a.address == b.address
    && a.agentId == b.agentId
    && a.authenticator == b.authenticator
    && a.listenerId == b.listenerId
    && a.paddingMax == b.paddingMax
    && a.psk == b.psk
    && a.transformers == b.transformers
    && a.mode == b.mode
  }

  /** What `strconv.Atoi` returns: Go assigns the value even when it also
      reports an error (0 for malformed text, the clamped bound when out of
      range). */
  datatype Atoi = Atoi(value: int, err: Option<Cause>)

  /** The mode a configured mode name selects: "tcp-reverse" in any case
      selects REVERSE, anything else (including unknown names) BIND. */
  function ModeOf(name: string): (mode: int)
    ensures mode == BIND || mode == REVERSE
    ensures mode == REVERSE <==> ToLower(name) == "tcp-reverse"
  {
    match ToLower(name)
    case "tcp-bind" => BIND
    case "tcp-reverse" => REVERSE
    case _ => BIND
  }

  /** `Client.String`: the name of the client's mode. */
  function String(c: Client): (name: string)
    ensures c.mode == BIND ==> name == "tcp-bind"
    ensures c.mode == REVERSE ==> name == "tcp-reverse"
    ensures name == "tcp-unhandled" <==> c.mode != BIND && c.mode != REVERSE
  {
    if c.mode == BIND then "tcp-bind"
    else if c.mode == REVERSE then "tcp-reverse"
    else "tcp-unhandled"
  }

  /** The mode name `String` reports is one `ModeOf` reads back as the same
      mode, for both handled modes. */
  lemma ModeNameRoundTrip(c: Client)
    requires c.mode == BIND || c.mode == REVERSE
    ensures ModeOf(String(c)) == c.mode
  {
  }

  /** `Client.Get`: reads `paddingmax` (as a decimal numeral) or `protocol`;
      any other key yields a description of the unknown key, not a failure. */
  function Get(c: Client, key: string): (value: string)
    ensures ToLower(key) == "paddingmax" ==> IsDecimal(value) && SignedValue(value) == c.paddingMax
    ensures ToLower(key) == "protocol" ==> value == String(c)
    ensures ToLower(key) != "paddingmax" && ToLower(key) != "protocol" ==>
              value == "unknown client configuration setting: " + key
  {
    match ToLower(key)
    case "paddingmax" => Itoa(c.paddingMax)
    case "protocol" => String(c)
    case _ => "unknown client configuration setting: " + key
  }

  datatype SetOutcome = SetOutcome(client: Client, err: Option<Error>)

  /** `Client.Set`: writes `paddingmax` (parsed by `atoi`) or `secret`;
      any other key is an error and changes nothing. */
  function Set(c: Client, key: string, value: string, atoi: string -> Atoi): (o: SetOutcome)
    ensures o.client.(paddingMax := c.paddingMax, secret := c.secret) == c
    ensures o.client.paddingMax != c.paddingMax ==> ToLower(key) == "paddingmax"
    ensures o.client.secret != c.secret ==> ToLower(key) == "secret"
    ensures ToLower(key) == "paddingmax" ==>
              o.client.paddingMax == atoi(value).value && (o.err.None? <==> atoi(value).err.None?)
    ensures ToLower(key) == "secret" ==> o.client.secret == Utf8(value) && o.err.None?
    ensures o.err.Some? && o.err.value.UnknownSetting? ==> o.client == c
    // Atoi's error is returned as it is; any other key is reported by name.
    ensures ToLower(key) == "paddingmax" && atoi(value).err.Some? ==> o.err == Some(BadSetting(atoi(value).err.value))
    ensures ToLower(key) != "paddingmax" && ToLower(key) != "secret" ==> o == SetOutcome(c, Some(UnknownSetting(key)))
    ensures o.err.None? <==> ToLower(key) == "secret" || (ToLower(key) == "paddingmax" && atoi(value).err.None?)
  {
    match ToLower(key)
    case "paddingmax" =>
      var n := atoi(value);
      SetOutcome(c.(paddingMax := n.value), if n.err.Some? then Some(BadSetting(n.err.value)) else None)
    case "secret" => SetOutcome(c.(secret := Utf8(value)), None)
    case _ => SetOutcome(c, Some(UnknownSetting(key)))
  }

  /** A successful `Set` of `paddingmax` is read back by `Get`, and leaves
      the protocol `Get` reports unchanged. */
  lemma GetAfterSet(c: Client, key: string, value: string, atoi: string -> Atoi)
    requires ToLower(key) == "paddingmax" && atoi(value).err.None?
    ensures SignedValue(Get(Set(c, key, value, atoi).client, "paddingmax")) == atoi(value).value
    ensures Get(Set(c, key, value, atoi).client, "protocol") == Get(c, "protocol")
  {
  }
}

=== FILE: config.dfy ===
/** `tcp.New`: building a client from its configuration. Name resolution,
    SHA-256 and `strconv.Atoi` are outside the model and come in as `Env`. */
module Configuration {
  import opened Wrappers
  import opened Strings
  import opened Messages
  import opened Errors
  import opened TcpClient
  import opened Connection

  /** The configuration `New` is given; the identifiers are UUIDs and the
      rest is text, as read from the command line or the build. */
  datatype Config = Config(
    address: seq<string>,
    agentId: Uuid,
    authPackage: string,
    listenerId: Uuid,
    padding: string,
    psk: string,
    transformers: string,     // comma separated, in construction order
    mode: string)

  /** What `New` takes from the libraries it calls: whether
      `net.ResolveTCPAddr` rejects an address (and why), `strconv.Atoi`, and
      the SHA-256 digest. */
  datatype Env = Env(resolve: string -> Option<Cause>, atoi: string -> Atoi, sha256: Bytes -> Digest)

  /** `New` returns a client, an error, or (for a bad padding) both. */
  datatype NewOutcome = NewOutcome(client: Option<Client>, err: Option<Error>)

  /** The authenticator package a name selects, in any letter case. */
  function AuthOf(name: string): (a: Option<AuthKind>)
    ensures a == Some(Opaque) <==> ToLower(name) == "opaque"
    ensures a == Some(NoAuth) <==> ToLower(name) == "none"
    ensures a.None? <==> ToLower(name) != "opaque" && ToLower(name) != "none"
  {
    match ToLower(name)
    case "opaque" => Some(Opaque)
    case "none" => Some(NoAuth)
    case _ => None
  }

  /** The transformer a name selects, in any letter case. */
  function KindOf(name: string): (k: Option<TransformKind>)
    ensures k == Some(GobBase) <==> ToLower(name) == "gob-base"
    ensures k == Some(GobString) <==> ToLower(name) == "gob-string"
    ensures k == Some(Aes) <==> ToLower(name) == "aes"
    ensures k == Some(Jwe) <==> ToLower(name) == "jwe"
  {
    match ToLower(name)
    case "gob-base" => Some(GobBase)
    case "gob-string" => Some(GobString)
    case "aes" => Some(Aes)
    case "jwe" => Some(Jwe)
    case _ => None
  }

  /** The transformer loop of `New`: every name maps to its transformer, in
      order, or the first name that maps to none is reported. */
  function KindsOf(names: seq<string>): (r: Result<seq<TransformKind>, string>)
    ensures r.Ok? <==> forall i :: 0 <= i < |names| ==> KindOf(names[i]).Some?
    ensures r.Ok? ==> |r.value| == |names| && forall i :: 0 <= i < |names| ==> Some(r.value[i]) == KindOf(names[i])
    ensures r.Err? ==> exists k :: 0 <= k < |names| && r.error == names[k] && KindOf(names[k]).None?
                        && forall j :: 0 <= j < k ==> KindOf(names[j]).Some?
  {
    if |names| == 0 then Ok([])
    else
      match KindOf(names[0])
      case None => Err(names[0])
      case Some(kind) =>
        match KindsOf(names[1..])
        case Err(name) =>
          // The failing name keeps its place, one further on.
          assert forall k :: 0 <= k < |names| - 1 ==> names[1..][k] == names[k + 1];
          Err(name)
        case Ok(kinds) => Ok([kind] + kinds)
  }

  /** Both identifiers are set. */
  predicate IdsGiven(config: Config)
  {
    config.agentId != NilUuid && config.listenerId != NilUuid
  }

  /** An address is given and the first one resolves. */
  predicate AddressResolves(config: Config, env: Env)
  {
    |config.address| > 0 && env.resolve(config.address[0]).None?
  }

  /** The padding is empty or parses as an integer. */
  predicate PaddingParses(config: Config, env: Env)
  {
    config.padding == "" || env.atoi(config.padding).err.None?
  }

  /** The padding maximum `New` records: 0 for an empty padding, otherwise
      what `Atoi` returned (also when it reported an error). */
  function PaddingOf(config: Config, env: Env): int
  {
    if config.padding == "" then 0 else env.atoi(config.padding).value
  }

  /** `tcp.New`. The checks run in order and the first that fails decides
      the error; only a bad padding also returns the client built so far. */
  function New(config: Config, env: Env): (o: NewOutcome)
    // Exactly one of a client and an error, except for a bad padding.
    ensures o.err.None? ==> o.client.Some?
    ensures o.client.None? ==> o.err.Some?
    ensures o.err.Some? && !o.err.value.BadPadding? ==> o.client.None?
    ensures o.err == Some(NilAgentId) <==> config.agentId == NilUuid
    ensures o.err == Some(NilListenerId) <==> config.agentId != NilUuid && config.listenerId == NilUuid
    ensures o.err == Some(NoAddress) <==> IdsGiven(config) && |config.address| == 0
    ensures (o.err.Some? && o.err.value.BadAddress?) <==>
              IdsGiven(config) && |config.address| > 0 && env.resolve(config.address[0]).Some?
    ensures o.err.Some? && o.err.value.BadAddress? ==> o == NewOutcome(None, Some(BadAddress(env.resolve(config.address[0]).value)))
    ensures (o.err.Some? && o.err.value.BadPadding?) <==>
              IdsGiven(config) && AddressResolves(config, env) && !PaddingParses(config, env)
    ensures o.err.Some? && o.err.value.BadPadding? ==>
              && o.err == Some(BadPadding(env.atoi(config.padding).err.value))
              && o.client.Some?
              && o.client.value.paddingMax == env.atoi(config.padding).value
              && o.client.value.authenticator.None?
              && o.client.value.transformers == []
    ensures o.err == Some(NoAuthenticator) <==>
              IdsGiven(config) && AddressResolves(config, env) && PaddingParses(config, env)
              && AuthOf(config.authPackage).None?
    ensures (o.err.Some? && o.err.value.UnhandledTransform?) <==>
              && IdsGiven(config) && AddressResolves(config, env) && PaddingParses(config, env)
              && AuthOf(config.authPackage).Some?
              && exists part :: part in Split(config.transformers, ',') && KindOf(part).None?
    // The name reported is the first unknown one.
    ensures o.err.Some? && o.err.value.UnhandledTransform? ==>
              && o.err.value.name in Split(config.transformers, ',') && KindOf(o.err.value.name).None?
              && KindsOf(Split(config.transformers, ',')) == Err(o.err.value.name)
    ensures o.err.Some? ==> o.err.value in {NilAgentId, NilListenerId, NoAddress, NoAuthenticator}
                            || o.err.value.BadAddress? || o.err.value.BadPadding? || o.err.value.UnhandledTransform?
    // Every client returned, complete or not, carries the settings read
    // before the padding, and no socket.
    ensures o.client.Some? ==>
              var c := o.client.value;
              && IdsGiven(config) && AddressResolves(config, env)
              && c.address == config.address[0]
              && c.agentId == config.agentId
              && c.listenerId == config.listenerId
              && c.psk == config.psk
              && c.secret == env.sha256(Utf8(config.psk))
              && c.mode == ModeOf(config.mode)
              && c.connection.None? && c.listener.None?
    ensures o.err.None? ==>
              var c := o.client.value;
              var parts := Split(config.transformers, ',');
              && c.paddingMax == PaddingOf(config, env)
              && c.authenticator == AuthOf(config.authPackage)
              && |c.transformers| == |parts| > 0
              && forall i :: 0 <= i < |parts| ==> Some(c.transformers[i]) == KindOf(parts[i])
  {
    if config.agentId == NilUuid then NewOutcome(None, Some(NilAgentId))
    else if config.listenerId == NilUuid then NewOutcome(None, Some(NilListenerId))
    else if |config.address| == 0 then NewOutcome(None, Some(NoAddress))
    else if env.resolve(config.address[0]).Some? then NewOutcome(None, Some(BadAddress(env.resolve(config.address[0]).value)))
    else
      var client := Client(config.address[0], config.agentId, None, None, None, config.listenerId,
                           PaddingOf(config, env), config.psk, env.sha256(Utf8(config.psk)), [], ModeOf(config.mode));
      if !PaddingParses(config, env) then NewOutcome(Some(client), Some(BadPadding(env.atoi(config.padding).err.value)))
      else if AuthOf(config.authPackage).None? then NewOutcome(None, Some(NoAuthenticator))
      else
        var parts := Split(config.transformers, ',');
        match KindsOf(parts)
        case Err(name) => NewOutcome(None, Some(UnhandledTransform(name)))
        case Ok(kinds) =>
          NewOutcome(Some(client.(authenticator := AuthOf(config.authPackage), transformers := kinds)), None)
  }

  /** A client `New` builds is in a mode `String` names and `Connect`
      handles, whatever mode name it was configured with. */
  lemma NewModeIsHandled(config: Config, env: Env, net: Net)
    requires New(config, env).client.Some?
    ensures String(New(config, env).client.value) != "tcp-unhandled"
    ensures Connect(New(config, env).client.value, net).err != Some(UnhandledMode(New(config, env).client.value.mode))
  {
  }

  /** Building then reading back: the protocol name is the configured mode
      name's own (for "tcp-bind" and "tcp-reverse" in any letter case) and
      the padding reads back as configured. */
  lemma NewThenGet(config: Config, env: Env)
    requires New(config, env).err.None?
    ensures ToLower(config.mode) == "tcp-reverse" ==> Get(New(config, env).client.value, "protocol") == "tcp-reverse"
    ensures ToLower(config.mode) != "tcp-reverse" ==> Get(New(config, env).client.value, "protocol") == "tcp-bind"
    ensures SignedValue(Get(New(config, env).client.value, "paddingmax")) == PaddingOf(config, env)
  {
  }
}

=== FILE: connection.dfy ===
/** `Client.Connect`: establishing the connection, by accepting one peer on
    a listener (BIND) or by dialling the peer (REVERSE). The socket calls
    are not modelled; their outcomes are inputs. */
module Connection {
  import opened Wrappers
  import opened Strings
  import opened Errors
  import opened TcpClient

  /** What the operating system answers to each socket call Connect may make. */
  datatype Net = Net(listen: Result<Listener, Cause>, accept: Result<Conn, Cause>, dial: Result<Conn, Cause>)

  /** A socket call, in the order the client makes them. */
  datatype SocketCall = Listen | Accept | Dial | Write(data: Bytes) | Read

  predicate Opens(call: SocketCall)
  {
    call == Accept || call == Dial
  }

  /** No call in `calls` creates a listener or a connection: they only use
      the connection there is. */
  predicate Reuses(calls: seq<SocketCall>)
  {
    forall j :: 0 <= j < |calls| ==> calls[j] != Listen && !Opens(calls[j])
  }

  datatype ConnectOutcome = ConnectOutcome(client: Client, err: Option<Error>, calls: seq<SocketCall>)

  /** `Client.Connect`. A failed Accept or Dial empties the connection slot,
      because Go hands back a nil connection along with the error. */
  function Connect(c: Client, net: Net): (o: ConnectOutcome)
    ensures SameSettings(c, o.client) && o.client.secret == c.secret
    ensures o.err.None? ==> o.client.connection.Some? && |o.calls| > 0 && Opens(o.calls[|o.calls| - 1])
    // Connect only listens, accepts or dials; it never writes or reads.
    ensures forall j :: 0 <= j < |o.calls| ==> !o.calls[j].Write? && o.calls[j] != Read
    // BIND: a listener is created only when there is none, and reused after.
    ensures c.mode == BIND ==> (Listen in o.calls <==> c.listener.None?)
    ensures c.mode == BIND && c.listener.Some? ==> o.client.listener == c.listener
    ensures c.mode == BIND && c.listener.None? ==>
              o.client.listener == (if net.listen.Ok? then Some(net.listen.value) else None)
    ensures c.mode == BIND && c.listener.None? && net.listen.Err? ==>
              o == ConnectOutcome(c, Some(ListenFailed(net.listen.error)), [Listen])
    ensures c.mode == BIND && (c.listener.Some? || net.listen.Ok?) ==>
              && o.calls == (if c.listener.None? then [Listen, Accept] else [Accept])
              && o.client.connection == (if net.accept.Ok? then Some(net.accept.value) else None)
              && (o.err.None? <==> net.accept.Ok?)
              && (net.accept.Err? ==> o.err == Some(AcceptFailed(net.accept.error)))
    // REVERSE: dial, never touching the listener.
    ensures c.mode == REVERSE ==>
              && o.client.listener == c.listener
              && o.calls == [Dial]
              && o.client.connection == (if net.dial.Ok? then Some(net.dial.value) else None)
              && (o.err.None? <==> net.dial.Ok?)
              && (net.dial.Err? ==> o.err == Some(DialFailed(net.dial.error)))
    // Any other mode: an error and nothing changes.
    ensures c.mode != BIND && c.mode != REVERSE ==> o == ConnectOutcome(c, Some(UnhandledMode(c.mode)), [])
    ensures o.err == Some(UnhandledMode(c.mode)) <==> c.mode != BIND && c.mode != REVERSE
  {
    if c.mode == BIND then
      if c.listener.None? && net.listen.Err? then
        ConnectOutcome(c, Some(ListenFailed(net.listen.error)), [Listen])
      else
        var listening := if c.listener.None? then c.(listener := Some(net.listen.value)) else c;
        var calls := if c.listener.None? then [Listen, Accept] else [Accept];
        match net.accept
        case Err(cause) => ConnectOutcome(listening.(connection := None), Some(AcceptFailed(cause)), calls)
        case Ok(conn) => ConnectOutcome(listening.(connection := Some(conn)), None, calls)
    else if c.mode == REVERSE then
      match net.dial
      case Err(cause) => ConnectOutcome(c.(connection := None), Some(DialFailed(cause)), [Dial])
      case Ok(conn) => ConnectOutcome(c.(connection := Some(conn)), None, [Dial])
    else
      ConnectOutcome(c, Some(UnhandledMode(c.mode)), [])
  }
}

=== FILE: errors.dfy ===
/** The errors the TCP client returns, one constructor per distinct error
    return in the client. A `Cause` is the text of an error produced by code
    outside the model (a socket call, a transformer, the authenticator). */
module Errors {

  type Cause = string

  datatype Error =
    // Transform pipeline
    | ConstructStage(cause: Cause)            // a stage's Construct failed (wrapped)
    | DeconstructStage(cause: Cause)          // a stage's Deconstruct failed (returned as is)
    | UnhandledDataType                       // a stage returned none of bytes, string, Base
    | NoBaseMessage                           // every stage ran and none produced a Base
    // Connection
    | ListenFailed(cause: Cause)
    | AcceptFailed(cause: Cause)
    | DialFailed(cause: Cause)
    | UnhandledMode(mode: int)
    // Send
    | SendConstruct(inner: Error)
    | EnvelopeEncoding(cause: Cause)
    | SendConnect(inner: Error)
    | WriteFailed(cause: Cause)
    | PeerReset                               // end of stream on read
    | ReadFailed(cause: Cause)
    | SendDeconstruct(inner: Error)
    // Authentication
    | AuthenticatorFailed(cause: Cause)       // the authenticator's own error, returned as is
    | SecretFailed(cause: Cause)              // the authenticator could not produce its key
    | InitialConnect(inner: Error)
    // Configuration
    | NilAgentId
    | NilListenerId
    | NoAddress
    | BadAddress(cause: Cause)
    | BadPadding(cause: Cause)
    | NoAuthenticator
    | UnhandledTransform(name: string)
    | BadSetting(cause: Cause)                // Atoi's error from Set, returned as is
    | UnknownSetting(key: string)

  /** The errors `Send` itself returns. */
  predicate IsSendError(e: Error)
  {
    || e.SendConstruct? || e.EnvelopeEncoding? || e.SendConnect? || e.WriteFailed?
    || e == PeerReset || e.ReadFailed? || e.SendDeconstruct?
  }
}

=== FILE: exchange.dfy ===
/** `Client.Send`: one request/response round trip. The message is padded,
    run through the transform pipeline, wrapped in an envelope and encoded,
    written to the connection (re-established first if it was dropped), and
    the response is read and run back through the pipeline. */
module Exchange {
  import opened Wrappers
  import opened Strings
  import opened Messages
  import opened Errors
  import opened Pipeline
  import opened TcpClient
  import opened Connection

  /** The size of the buffer a response is read into. */
  const ReadBufferSize := 500000

  /** What one read from the connection returns. */
  datatype ReadOutcome = Received(data: Bytes) | EndOfStream | ReadError(cause: Cause)

  /** Everything Send takes from outside the model. */
  datatype SendIo = SendIo(
    padding: string,                          // the random padding text
    encode: Envelope -> Result<Bytes, Cause>, // the gob encoding of the envelope
    net: Net,                                 // socket outcomes, should a reconnection be needed
    write: Option<Cause>,                     // the write's error, if any
    read: ReadOutcome)

  /** The random padding is shorter than `paddingMax` whenever padding is on:
      its length is drawn from [0, paddingMax). */
  predicate PaddingFits(paddingMax: int, padding: string)
  {
    paddingMax > 0 ==> |padding| < paddingMax
  }

  /** The stages the configured transformer kinds stand for, in order. */
  function Stages(kinds: seq<TransformKind>, impl: TransformKind -> Stage): (stages: seq<Stage>)
    ensures |stages| == |kinds|
    ensures forall i :: 0 <= i < |kinds| ==> stages[i] == impl(kinds[i])
  {
    seq(|kinds|, i requires 0 <= i < |kinds| => impl(kinds[i]))
  }

  /** What a single read into the response buffer can hold of `data`. */
  function Truncate(data: Bytes): (r: Bytes)
    ensures |r| <= ReadBufferSize
    ensures |r| <= |data| && r == data[..|r|]
    ensures |data| <= ReadBufferSize ==> r == data
  {
    if |data| <= ReadBufferSize then data else data[..ReadBufferSize]
  }

  /** The client and result after the read that follows a write. */
  datatype Reply = Reply(client: Client, result: Result<seq<Base>, Error>)

  /** Reading the response: end of stream drops the connection, any other
      read error keeps it, received bytes go through Deconstruct. */
  function ReadReply(c: Client, stages: seq<Stage>, read: ReadOutcome): (r: Reply)
    ensures read.EndOfStream? <==> r.result == Err(PeerReset)
    ensures read.EndOfStream? ==> r.client == c.(connection := None)
    ensures !read.EndOfStream? ==> r.client == c
    ensures read.ReadError? ==> r.result == Err(ReadFailed(read.cause))
    ensures r.result.Err? ==> IsSendError(r.result.error)
    ensures r.result.Ok? ==>
              && read.Received? && |r.result.value| == 1
              && Deconstruct(stages, Truncate(read.data), c.secret) == Ok(r.result.value[0])
    // Received bytes that deconstruct are the reply; a failure is wrapped.
    ensures read.Received? ==>
              r.result == match Deconstruct(stages, Truncate(read.data), c.secret)
                          case Ok(m) => Ok([m])
                          case Err(e) => Err(SendDeconstruct(e))
  {
    match read
    case EndOfStream => Reply(c.(connection := None), Err(PeerReset))
    case ReadError(cause) => Reply(c, Err(ReadFailed(cause)))
    case Received(data) =>
      match Deconstruct(stages, Truncate(data), c.secret)
      case Err(e) => Reply(c, Err(SendDeconstruct(e)))
      case Ok(reply) => Reply(c, Ok([reply]))
  }

  /** `padded` is the message after the padding step, the one handed to
      Construct; `calls` are the socket calls made, in order. */
  datatype SendOutcome = SendOutcome(client: Client, padded: Base, result: Result<seq<Base>, Error>, calls: seq<SocketCall>)

  /** Writing `wire` to the open connection, then reading the reply when
      the write succeeded. */
  function Deliver(c: Client, padded: Base, wire: Bytes, stages: seq<Stage>, io: SendIo): (o: SendOutcome)
    ensures o.padded == padded
    ensures o.calls == if io.write.Some? then [Write(wire)] else [Write(wire), Read]
    ensures o.result.Err? ==> IsSendError(o.result.error)
    ensures io.write.Some? ==> o.client == c && o.result == Err(WriteFailed(io.write.value))
    ensures io.write.None? ==>
              && o.client == ReadReply(c, stages, io.read).client
              && o.result == ReadReply(c, stages, io.read).result
  {
    match io.write
    case Some(cause) => SendOutcome(c, padded, Err(WriteFailed(cause)), [Write(wire)])
    case None =>
      var reply := ReadReply(c, stages, io.read);
      SendOutcome(reply.client, padded, reply.result, [Write(wire), Read])
  }

  /** The socket half of Send when the connection was dropped: connect
      again, then write and read if that succeeded. */
  function Redial(c: Client, padded: Base, wire: Bytes, stages: seq<Stage>, io: SendIo): (o: SendOutcome)
    ensures o.padded == padded
    ensures o.result.Err? ==> IsSendError(o.result.error)
    ensures Connect(c, io.net).err.Some? ==>
              o == SendOutcome(Connect(c, io.net).client, padded, Err(SendConnect(Connect(c, io.net).err.value)),
                               Connect(c, io.net).calls)
    ensures Connect(c, io.net).err.None? ==>
              var sent := Deliver(Connect(c, io.net).client, padded, wire, stages, io);
              o == SendOutcome(sent.client, padded, sent.result, Connect(c, io.net).calls + sent.calls)
  {
    var co := Connect(c, io.net);
    if co.err.Some? then SendOutcome(co.client, padded, Err(SendConnect(co.err.value)), co.calls)
    else
      var sent := Deliver(co.client, padded, wire, stages, io);
      SendOutcome(sent.client, padded, sent.result, co.calls + sent.calls)
  }

  /** The socket half of Send: reconnect if there is no connection, write
      `wire`, read the reply. */
  function Transmit(c: Client, padded: Base, wire: Bytes, stages: seq<Stage>, io: SendIo): (o: SendOutcome)
    ensures SameSettings(c, o.client) && o.client.secret == c.secret
    ensures o.padded == padded
    ensures forall j :: 0 <= j < |o.calls| && o.calls[j].Write? ==> o.calls[j].data == wire
    ensures c.connection.Some? ==> forall j :: 0 <= j < |o.calls| ==> o.calls[j] != Listen && !Opens(o.calls[j])
    ensures c.connection.None? ==>
              forall j :: 0 <= j < |o.calls| && o.calls[j].Write? ==> exists i :: 0 <= i < j && Opens(o.calls[i])
    ensures o.result.Err? && o.result.error.SendConnect? ==>
              forall j :: 0 <= j < |o.calls| ==> !o.calls[j].Write? && o.calls[j] != Read
    ensures Read in o.calls ==> |o.calls| >= 2 && o.calls[|o.calls| - 1] == Read && o.calls[|o.calls| - 2].Write?
    ensures io.write.Some? ==> Read !in o.calls
    ensures o.result == Err(PeerReset) <==> Read in o.calls && io.read.EndOfStream?
    ensures o.result == Err(PeerReset) ==> o.client.connection.None?
    ensures Read in o.calls && io.read.ReadError? ==>
              o.result == Err(ReadFailed(io.read.cause)) && o.client.connection.Some?
    ensures c.connection.Some? && o.result != Err(PeerReset) ==> o.client == c
    ensures o.result.Err? ==> IsSendError(o.result.error) && !o.result.error.SendConstruct? && !o.result.error.EnvelopeEncoding?
    ensures o.result.Ok? ==>
              && |o.result.value| == 1 && Read in o.calls && o.client.connection.Some? && io.read.Received?
              && Deconstruct(stages, Truncate(io.read.data), c.secret) == Ok(o.result.value[0])
    ensures Read in o.calls && io.read.Received? ==>
              o.result == match Deconstruct(stages, Truncate(io.read.data), c.secret)
                          case Ok(m) => Ok([m])
                          case Err(e) => Err(SendDeconstruct(e))
    // A failed reconnection is the result, with only its own calls and effects.
    ensures c.connection.None? && Connect(c, io.net).err.Some? ==>
              o == SendOutcome(Connect(c, io.net).client, padded, Err(SendConnect(Connect(c, io.net).err.value)),
                               Connect(c, io.net).calls)
    // The write is made exactly when there is a connection to write to,
    // first thing or right after the reconnection's calls.
    ensures Write(wire) in o.calls <==> c.connection.Some? || Connect(c, io.net).err.None?
    ensures c.connection.Some? ==> |o.calls| > 0 && o.calls[0] == Write(wire)
    ensures c.connection.None? && Connect(c, io.net).err.None? ==>
              var reconnect := Connect(c, io.net).calls;
              |o.calls| > |reconnect| && o.calls[..|reconnect|] == reconnect && o.calls[|reconnect|] == Write(wire)
    ensures Write(wire) in o.calls && io.write.Some? ==> o.result == Err(WriteFailed(io.write.value))
    ensures Read in o.calls <==> Write(wire) in o.calls && io.write.None?
  {
    if c.connection.Some? then Deliver(c, padded, wire, stages, io)
    else
      RedialCalls(c, padded, wire, stages, io);
      Redial(c, padded, wire, stages, io)
  }

  /** The order of the socket calls after a dropped connection: the
      reconnection's calls, then the write, then the read. */
  lemma RedialCalls(c: Client, padded: Base, wire: Bytes, stages: seq<Stage>, io: SendIo)
    ensures var o := Redial(c, padded, wire, stages, io);
            && (forall j :: 0 <= j < |o.calls| && o.calls[j].Write? ==> o.calls[j].data == wire)
            && (forall j :: 0 <= j < |o.calls| && o.calls[j].Write? ==> exists i :: 0 <= i < j && Opens(o.calls[i]))
            && (Write(wire) in o.calls <==> Connect(c, io.net).err.None?)
            && (Connect(c, io.net).err.None? ==>
                  var reconnect := Connect(c, io.net).calls;
                  |o.calls| > |reconnect| && o.calls[..|reconnect|] == reconnect && o.calls[|reconnect|] == Write(wire))
            && (Read in o.calls <==> Write(wire) in o.calls && io.write.None?)
            && (Read in o.calls ==> |o.calls| >= 2 && o.calls[|o.calls| - 1] == Read && o.calls[|o.calls| - 2].Write?)
  {
    var o := Redial(c, padded, wire, stages, io);
    var co := Connect(c, io.net);
    if co.err.Some? {
      assert Write(wire) !in co.calls && Read !in co.calls;
    } else {
      assert |co.calls| > 0 && Opens(co.calls[|co.calls| - 1]);
      assert o.calls[..|co.calls|] == co.calls && o.calls[|co.calls|] == Write(wire);
      assert forall j :: 0 <= j < |o.calls| && o.calls[j].Write? ==> j == |co.calls|;
      assert Opens(o.calls[|co.calls| - 1]);
      assert Read !in co.calls;
    }
  }

  /** The bytes Send writes: the constructed payload in its envelope,
      gob-encoded; or the error that stops Send before any socket call. */
  function Wire(c: Client, padded: Base, impl: TransformKind -> Stage, io: SendIo): (r: Result<Bytes, Error>)
    ensures Construct(Stages(c.transformers, impl), padded, c.secret).Err? ==>
              r == Err(SendConstruct(Construct(Stages(c.transformers, impl), padded, c.secret).error))
    ensures Construct(Stages(c.transformers, impl), padded, c.secret).Ok? ==>
              var envelope := Envelope(c.listenerId, c.agentId, Construct(Stages(c.transformers, impl), padded, c.secret).value);
              && (io.encode(envelope).Err? ==> r == Err(EnvelopeEncoding(io.encode(envelope).error)))
              && (io.encode(envelope).Ok? ==> r == Ok(io.encode(envelope).value))
  {
    match Construct(Stages(c.transformers, impl), padded, c.secret)
    case Err(e) => Err(SendConstruct(e))
    case Ok(payload) =>
      match io.encode(Envelope(c.listenerId, c.agentId, payload))
      case Err(cause) => Err(EnvelopeEncoding(cause))
      case Ok(wire) => Ok(wire)
  }

  /** `Client.Send`. */
  function Send(c: Client, m: Base, impl: TransformKind -> Stage, io: SendIo): (o: SendOutcome)
    requires PaddingFits(c.paddingMax, io.padding)
    ensures SameSettings(c, o.client) && o.client.secret == c.secret
    // Padding: only the padding field changes, and only when padding is on.
    ensures o.padded.(padding := m.padding) == m
    ensures c.paddingMax > 0 ==> o.padded.padding == io.padding && 0 <= |o.padded.padding| < c.paddingMax
    ensures c.paddingMax <= 0 ==> o.padded == m
    // A construction or encoding failure comes before any socket call or state change.
    ensures Construct(Stages(c.transformers, impl), o.padded, c.secret).Err? ==>
              && o.client == c && o.calls == []
              && o.result == Err(SendConstruct(Construct(Stages(c.transformers, impl), o.padded, c.secret).error))
    ensures o.result.Err? && (o.result.error.SendConstruct? || o.result.error.EnvelopeEncoding?) ==>
              o.client == c && o.calls == []
    // What is written is the encoded envelope around the constructed payload.
    ensures forall j :: 0 <= j < |o.calls| && o.calls[j].Write? ==>
              && Construct(Stages(c.transformers, impl), o.padded, c.secret).Ok?
              && io.encode(Envelope(c.listenerId, c.agentId, Construct(Stages(c.transformers, impl), o.padded, c.secret).value))
                 == Ok(o.calls[j].data)
    // An existing connection is reused; a missing one is re-established before writing.
    ensures c.connection.Some? ==> forall j :: 0 <= j < |o.calls| ==> o.calls[j] != Listen && !Opens(o.calls[j])
    ensures c.connection.None? ==>
              forall j :: 0 <= j < |o.calls| && o.calls[j].Write? ==> exists i :: 0 <= i < j && Opens(o.calls[i])
    ensures o.result.Err? && o.result.error.SendConnect? ==>
              forall j :: 0 <= j < |o.calls| ==> !o.calls[j].Write? && o.calls[j] != Read
    // Reading comes right after a successful write, and only then.
    ensures Read in o.calls ==> |o.calls| >= 2 && o.calls[|o.calls| - 1] == Read && o.calls[|o.calls| - 2].Write?
    ensures io.write.Some? ==> Read !in o.calls
    // End of stream drops the connection; any other read error keeps it.
    ensures o.result == Err(PeerReset) <==> Read in o.calls && io.read.EndOfStream?
    ensures o.result == Err(PeerReset) ==> o.client.connection.None?
    ensures Read in o.calls && io.read.ReadError? ==>
              o.result == Err(ReadFailed(io.read.cause)) && o.client.connection.Some?
    ensures c.connection.Some? && o.result != Err(PeerReset) ==> o.client == c
    // Success: exactly one message, read back from what one read can hold.
    ensures o.result.Ok? ==>
              && |o.result.value| == 1 && Read in o.calls && o.client.connection.Some? && io.read.Received?
              && Deconstruct(Stages(c.transformers, impl), Truncate(io.read.data), c.secret) == Ok(o.result.value[0])
    // A received reply that deconstructs is the result; a failure is wrapped.
    ensures Read in o.calls && io.read.Received? ==>
              o.result == match Deconstruct(Stages(c.transformers, impl), Truncate(io.read.data), c.secret)
                          case Ok(m) => Ok([m])
                          case Err(e) => Err(SendDeconstruct(e))
    // Construction or encoding failing is the result, before any socket call.
    ensures Wire(c, o.padded, impl, io).Err? ==> o == SendOutcome(c, o.padded, Err(Wire(c, o.padded, impl, io).error), [])
    // A failed reconnection is the result, with only its own calls and
    // effects: nothing is written.
    ensures Wire(c, o.padded, impl, io).Ok? && c.connection.None? && Connect(c, io.net).err.Some? ==>
              o == SendOutcome(Connect(c, io.net).client, o.padded, Err(SendConnect(Connect(c, io.net).err.value)),
                               Connect(c, io.net).calls)
    // The encoded bytes are written exactly when there is a connection to
    // write to, first thing or right after a successful reconnection.
    ensures Wire(c, o.padded, impl, io).Ok? ==>
              var wire := Wire(c, o.padded, impl, io).value;
              && (Write(wire) in o.calls <==> c.connection.Some? || Connect(c, io.net).err.None?)
              && (c.connection.Some? ==> |o.calls| > 0 && o.calls[0] == Write(wire))
              && (c.connection.None? && Connect(c, io.net).err.None? ==>
                    var reconnect := Connect(c, io.net).calls;
                    |o.calls| > |reconnect| && o.calls[..|reconnect|] == reconnect && o.calls[|reconnect|] == Write(wire))
              // A write error is the result; otherwise the read follows.
              && (Write(wire) in o.calls && io.write.Some? ==> o.result == Err(WriteFailed(io.write.value)))
              && (Read in o.calls <==> Write(wire) in o.calls && io.write.None?)
    // The client left behind: on an open connection only end of stream
    // changes it, and only its slot; after a reconnection it is Connect's.
    ensures c.connection.Some? && o.result == Err(PeerReset) ==> o.client == c.(connection := None)
    ensures Wire(c, o.padded, impl, io).Ok? && c.connection.None? && Connect(c, io.net).err.None? ==>
              o.client == (if o.result == Err(PeerReset) then Connect(c, io.net).client.(connection := None)
                           else Connect(c, io.net).client)
  {
    var padded := if c.paddingMax > 0 then m.(padding := io.padding) else m;
    match Wire(c, padded, impl, io)
    case Err(e) => SendOutcome(c, padded, Err(e), [])
    case Ok(wire) => Transmit(c, padded, wire, Stages(c.transformers, impl), io)
  }

  /** A listener, once created, survives every Send, and no Send with a
      listener listens again. */
  lemma ListenerKept(c: Client, m: Base, impl: TransformKind -> Stage, io: SendIo)
    requires PaddingFits(c.paddingMax, io.padding)
    requires c.listener.Some?
    ensures Send(c, m, impl, io).client.listener == c.listener
    ensures Listen !in Send(c, m, impl, io).calls
  {
  }

  /** Self-healing: after a Send that met end of stream, the connection is
      gone, and the next Send writes only after it has connected again. */
  lemma ReconnectAfterReset(c: Client, m1: Base, m2: Base, impl: TransformKind -> Stage, io1: SendIo, io2: SendIo)
    requires PaddingFits(c.paddingMax, io1.padding) && PaddingFits(c.paddingMax, io2.padding)
    requires Send(c, m1, impl, io1).result == Err(PeerReset)
    ensures Send(c, m1, impl, io1).client.connection.None?
    ensures var c1 := Send(c, m1, impl, io1).client;
            var o2 := Send(c1, m2, impl, io2);
            forall j :: 0 <= j < |o2.calls| && o2.calls[j].Write? ==>
              && Connect(c1, io2.net).err.None?
              && j == |Connect(c1, io2.net).calls|
              && o2.calls[..j] == Connect(c1, io2.net).calls
  {
    var c1 := Send(c, m1, impl, io1).client;
    var o2 := Send(c1, m2, impl, io2);
    forall j | 0 <= j < |o2.calls| && o2.calls[j].Write?
      ensures && Connect(c1, io2.net).err.None?
              && j == |Connect(c1, io2.net).calls|
              && o2.calls[..j] == Connect(c1, io2.net).calls
    {
      var wire := Wire(c1, o2.padded, impl, io2).value;
      assert o2.calls[j] == Write(wire);
      var reconnect := Connect(c1, io2.net).calls;
      assert forall i :: 0 <= i < |reconnect| ==> !reconnect[i].Write?;
    }
  }
}

=== FILE: messages.dfy ===
/** What the transport carries: identifiers, the application message
    (`messages.Base`) and the wire envelope (`messages.Delegate`). */
module Messages {
  import opened Strings

  /** A 16-byte UUID. */
  type Uuid = b: Bytes | |b| == 16 witness NilUuid

  /** `uuid.Nil`, the all-zero UUID. */
  const NilUuid: Bytes := [0, 0, 0, 0, 0, 0, 0, 0, 0, 0, 0, 0, 0, 0, 0, 0]

  /** A SHA-256 digest: always 32 bytes. */
  type Digest = b: Bytes | |b| == 32 witness NilUuid + NilUuid

  /** The application message. The transport never looks inside `payload`;
      it only overwrites `padding` before sending. */
  datatype Base = Base(id: Uuid, kind: int, payload: Bytes, padding: string, token: string)

  /** `messages.Base{}`, the zero message `Initial` starts authentication with. */
  const EmptyBase := Base(NilUuid, 0, [], "", "")

  /** The wire unit: routing identifiers plus the already transformed payload. */
  datatype Envelope = Envelope(listener: Uuid, agent: Uuid, payload: Bytes)
}

=== FILE: pipeline.dfy ===
/** The transform pipeline (`Client.Construct` and `Client.Deconstruct`): an
    ordered list of stages applied last-to-first on the way out and
    first-to-last on the way in. The stages themselves (gob encoders, AES,
    JWE) are outside the model; each is a pair of functions of the secret. */
module Pipeline {
  import opened Wrappers
  import opened Strings
  import opened Messages
  import opened Errors

  /** What a stage's Construct is handed: the application message (only the
      first stage to run gets it) or the bytes the previous stage produced. */
  datatype Input = FromBase(msg: Base) | FromBytes(data: Bytes)

  /** What a stage's Deconstruct returns: Go's `interface{}` result, sorted
      into the three types the pipeline recognises and everything else. */
  datatype Output = OutBytes(data: Bytes) | OutString(text: Bytes) | OutBase(msg: Base) | OutOther

  /** A transformer: its Construct and Deconstruct, both given the secret. */
  datatype Stage = Stage(
    construct: (Input, Bytes) -> Result<Bytes, Cause>,
    deconstruct: (Bytes, Bytes) -> Result<Output, Cause>)

  // ---------------------------------------------------------------------
  // Outbound
  // ---------------------------------------------------------------------

  /** Runs stages[|stages|-1] down to stages[0], each on what the one before
      it produced, stopping at the first failure. When no stage runs,
      bytes pass through and a message yields no data. */
  function Outbound(stages: seq<Stage>, input: Input, secret: Bytes): (r: Result<Bytes, Error>)
    ensures r.Err? ==> r.error.ConstructStage?
    decreases |stages|
  {
    if |stages| == 0 then
      Ok(if input.FromBytes? then input.data else [])
    else
      match stages[|stages| - 1].construct(input, secret)
      case Err(cause) => Err(ConstructStage(cause))
      case Ok(data) => Outbound(stages[..|stages| - 1], FromBytes(data), secret)
  }

  /** `Client.Construct`: turns a message into wire payload bytes. */
  function Construct(stages: seq<Stage>, msg: Base, secret: Bytes): (r: Result<Bytes, Error>)
    ensures |stages| == 0 ==> r == Ok([])
    ensures r.Err? ==> r.error.ConstructStage?
  {
    Outbound(stages, FromBase(msg), secret)
  }

  /** `outs[i]` is what stage i produced when every stage is handed what
      Construct hands it: the last stage gets `input`, every other stage
      gets the output of the stage after it. */
  ghost predicate OutboundChain(stages: seq<Stage>, input: Input, secret: Bytes, outs: seq<Bytes>)
  {
    && |outs| == |stages| > 0
    && stages[|stages| - 1].construct(input, secret) == Ok(outs[|stages| - 1])
    && forall i :: 0 <= i < |stages| - 1 ==> stages[i].construct(FromBytes(outs[i + 1]), secret) == Ok(outs[i])
  }

  lemma {:induction false} ChainGivesOutbound(stages: seq<Stage>, input: Input, secret: Bytes, outs: seq<Bytes>)
    requires OutboundChain(stages, input, secret, outs)
    ensures Outbound(stages, input, secret) == Ok(outs[0])
  {
    var n := |stages|;
    if n > 1 {
      var front := stages[..n - 1];
      var outs' := outs[..n - 1];
      forall i | 0 <= i < |front| - 1
        ensures front[i].construct(FromBytes(outs'[i + 1]), secret) == Ok(outs'[i])
      {
        assert stages[i].construct(FromBytes(outs[i + 1]), secret) == Ok(outs[i]);
      }
      assert stages[n - 2].construct(FromBytes(outs[n - 1]), secret) == Ok(outs[n - 2]);
      ChainGivesOutbound(front, FromBytes(outs[n - 1]), secret, outs');
    }
  }

  lemma {:induction false} OutboundGivesChain(stages: seq<Stage>, input: Input, secret: Bytes) returns (outs: seq<Bytes>)
    requires |stages| > 0
    requires Outbound(stages, input, secret).Ok?
    ensures OutboundChain(stages, input, secret, outs)
    ensures outs[0] == Outbound(stages, input, secret).value
  {
    var n := |stages|;
    var d := stages[n - 1].construct(input, secret).value;
    if n == 1 {
      outs := [d];
    } else {
      var front := stages[..n - 1];
      var rest := OutboundGivesChain(front, FromBytes(d), secret);
      outs := rest + [d];
      forall i | 0 <= i < n - 1
        ensures stages[i].construct(FromBytes(outs[i + 1]), secret) == Ok(outs[i])
      {
        if i < n - 2 {
          assert front[i].construct(FromBytes(rest[i + 1]), secret) == Ok(rest[i]);
        }
      }
    }
  }

  /** Construct's ordering: it succeeds with `data` exactly when the last
      stage accepts the message, every earlier stage accepts the bytes of
      the stage after it, and stage 0 produces `data`. */
  lemma ConstructOrder(stages: seq<Stage>, msg: Base, secret: Bytes, data: Bytes)
    requires |stages| > 0
    ensures Construct(stages, msg, secret) == Ok(data) <==>
            exists outs :: OutboundChain(stages, FromBase(msg), secret, outs) && outs[0] == data
  {
    if Construct(stages, msg, secret) == Ok(data) {
      var outs := OutboundGivesChain(stages, FromBase(msg), secret);
      assert OutboundChain(stages, FromBase(msg), secret, outs) && outs[0] == data;
    }
    if exists outs :: OutboundChain(stages, FromBase(msg), secret, outs) && outs[0] == data {
      var outs :| OutboundChain(stages, FromBase(msg), secret, outs) && outs[0] == data;
      ChainGivesOutbound(stages, FromBase(msg), secret, outs);
    }
  }

  /** Running `front + back` is running `back` and then `front` on its bytes;
      a failure in `back` is the result and `front` is never consulted. */
  lemma {:induction false} OutboundSplits(front: seq<Stage>, back: seq<Stage>, input: Input, secret: Bytes)
    requires |back| > 0 || input.FromBytes?
    ensures Outbound(front + back, input, secret) ==
            match Outbound(back, input, secret)
            case Err(e) => Err(e)
            case Ok(d) => Outbound(front, FromBytes(d), secret)
  {
    if |back| == 0 {
      assert front + back == front;
    } else {
      var all := front + back;
      var back' := back[..|back| - 1];
      assert all[|all| - 1] == back[|back| - 1];
      assert all[..|all| - 1] == front + back';
      match back[|back| - 1].construct(input, secret)
      case Err(cause) =>
      case Ok(d) => OutboundSplits(front, back', FromBytes(d), secret);
    }
  }

  /** The first stage failure ends Construct: whatever the stages before the
      failing one are, the result is that failure. */
  lemma ConstructStopsAtFailure(front: seq<Stage>, back: seq<Stage>, msg: Base, secret: Bytes)
    requires Construct(back, msg, secret).Err?
    ensures Construct(front + back, msg, secret) == Construct(back, msg, secret)
  {
    OutboundSplits(front, back, FromBase(msg), secret);
  }

  lemma OutboundOne(stage: Stage, input: Input, secret: Bytes)
    ensures Outbound([stage], input, secret) ==
            match stage.construct(input, secret)
            case Err(cause) => Err(ConstructStage(cause))
            case Ok(d) => Ok(d)
  {
  }

  /** `Client.Construct` as written: a loop from the last transformer down
      to the first, returning at the first error. */
  method RunConstruct(stages: seq<Stage>, msg: Base, secret: Bytes) returns (r: Result<Bytes, Error>)
    ensures r == Construct(stages, msg, secret)
  {
    var data: Bytes := [];
    var i := |stages|;
    while i > 0
      invariant 0 <= i <= |stages|
      invariant i == |stages| ==> data == []
      invariant i < |stages| ==> Construct(stages[i..], msg, secret) == Ok(data)
      decreases i
    {
      var input := if i == |stages| then FromBase(msg) else FromBytes(data);
      var out := stages[i - 1].construct(input, secret);
      assert stages[i - 1..] == [stages[i - 1]] + stages[i..];
      OutboundOne(stages[i - 1], input, secret);
      if i < |stages| {
        OutboundSplits([stages[i - 1]], stages[i..], FromBase(msg), secret);
      } else {
        assert stages[i - 1..] == [stages[i - 1]];
      }
      assert Construct(stages[i - 1..], msg, secret) ==
             if out.Err? then Err(ConstructStage(out.error)) else Ok(out.value);
      if out.Err? {
        assert stages == stages[..i - 1] + stages[i - 1..];
        ConstructStopsAtFailure(stages[..i - 1], stages[i - 1..], msg, secret);
        return Err(ConstructStage(out.error));
      }
      data := out.value;
      i := i - 1;
    }
    assert stages[0..] == stages;
    return Ok(data);
  }

  // ---------------------------------------------------------------------
  // Inbound
  // ---------------------------------------------------------------------

  /** The outcome of one inbound stage: go on with these bytes, or stop with
      this result. */
  datatype Flow = Next(data: Bytes) | Stop(result: Result<Base, Error>)

  /** One stage of Deconstruct: bytes and strings are fed on, a message ends
      the pipeline, an error or an unrecognised type fails it. */
  function Step(stage: Stage, data: Bytes, secret: Bytes): (f: Flow)
    ensures f.Stop? && f.result.Err? ==> f.result.error.DeconstructStage? || f.result.error.UnhandledDataType?
  {
    match stage.deconstruct(data, secret)
    case Err(cause) => Stop(Err(DeconstructStage(cause)))
    case Ok(OutBytes(b)) => Next(b)
    case Ok(OutString(t)) => Next(t)
    case Ok(OutBase(m)) => Stop(Ok(m))
    case Ok(OutOther) => Stop(Err(UnhandledDataType))
  }

  /** Runs stages[0] up to stages[|stages|-1] until one of them stops. */
  function Inbound(stages: seq<Stage>, data: Bytes, secret: Bytes): (f: Flow)
    ensures f.Stop? && f.result.Err? ==> f.result.error.DeconstructStage? || f.result.error.UnhandledDataType?
  {
    if |stages| == 0 then Next(data)
    else
      match Step(stages[0], data, secret)
      case Next(d) => Inbound(stages[1..], d, secret)
      case Stop(r) => Stop(r)
  }

  /** `Client.Deconstruct`: turns received bytes back into a message. */
  function Deconstruct(stages: seq<Stage>, data: Bytes, secret: Bytes): (r: Result<Base, Error>)
    ensures r == Err(NoBaseMessage) <==> Inbound(stages, data, secret).Next?
    ensures r.Err? ==> r.error.DeconstructStage? || r.error.UnhandledDataType? || r.error.NoBaseMessage?
    ensures |stages| == 0 ==> r == Err(NoBaseMessage)
  {
    match Inbound(stages, data, secret)
    case Next(_) => Err(NoBaseMessage)
    case Stop(r) => r
  }

  /** Running `front + back` inbound is running `front`, and `back` on its
      bytes only if `front` did not stop. */
  lemma {:induction false} InboundSplits(front: seq<Stage>, back: seq<Stage>, data: Bytes, secret: Bytes)
    ensures Inbound(front + back, data, secret) ==
            match Inbound(front, data, secret)
            case Next(d) => Inbound(back, d, secret)
            case Stop(r) => Stop(r)
  {
    if |front| == 0 {
      assert front + back == back;
    } else {
      assert (front + back)[0] == front[0];
      assert (front + back)[1..] == front[1..] + back;
      match Step(front[0], data, secret)
      case Next(d) => InboundSplits(front[1..], back, d, secret);
      case Stop(r) =>
    }
  }

  /** Short circuit: once stage k stops (with a message, an error or an
      unrecognised type), that is Deconstruct's result and the stages after
      k are never consulted. */
  lemma DeconstructStopsAt(stages: seq<Stage>, k: nat, data: Bytes, secret: Bytes, d: Bytes)
    requires k < |stages|
    requires Inbound(stages[..k], data, secret) == Next(d)
    requires Step(stages[k], d, secret).Stop?
    ensures Deconstruct(stages, data, secret) == Step(stages[k], d, secret).result
  {
    assert stages == stages[..k] + stages[k..];
    InboundSplits(stages[..k], stages[k..], data, secret);
    assert stages[k..][0] == stages[k];
  }

  /** Conversely, a message from Deconstruct is what the first stopping
      stage returned, every stage before it having produced bytes. */
  lemma {:induction false} DeconstructFindsBase(stages: seq<Stage>, data: Bytes, secret: Bytes) returns (k: nat, d: Bytes)
    requires Deconstruct(stages, data, secret).Ok?
    ensures k < |stages|
    ensures Inbound(stages[..k], data, secret) == Next(d)
    ensures stages[k].deconstruct(d, secret) == Ok(OutBase(Deconstruct(stages, data, secret).value))
  {
    assert |stages| > 0;
    assert stages[..0] == [];
    match Step(stages[0], data, secret)
    case Stop(r) =>
      k, d := 0, data;
    case Next(e) =>
      var k', d' := DeconstructFindsBase(stages[1..], e, secret);
      k, d := k' + 1, d';
      assert stages[..k] == [stages[0]] + stages[1..][..k'];
      InboundSplits([stages[0]], stages[1..][..k'], data, secret);
      assert [stages[0]][1..] == [];
  }

  /** `Client.Deconstruct` as written: a loop over the transformers in order,
      returning at the first message or error. */
  method RunDeconstruct(stages: seq<Stage>, data0: Bytes, secret: Bytes) returns (r: Result<Base, Error>)
    ensures r == Deconstruct(stages, data0, secret)
  {
    var data := data0;
    assert stages[..0] == [];
    for i := 0 to |stages|
      invariant Inbound(stages[..i], data0, secret) == Next(data)
    {
      assert stages[..i + 1] == stages[..i] + [stages[i]];
      InboundSplits(stages[..i], [stages[i]], data0, secret);
      assert [stages[i]][1..] == [];
      match stages[i].deconstruct(data, secret)
      case Err(cause) =>
        DeconstructStopsAt(stages, i, data0, secret, data);
        return Err(DeconstructStage(cause));
      case Ok(OutBytes(b)) =>
        data := b;
      case Ok(OutString(t)) =>
        data := t;
      case Ok(OutBase(m)) =>
        DeconstructStopsAt(stages, i, data0, secret, data);
        return Ok(m);
      case Ok(OutOther) =>
        DeconstructStopsAt(stages, i, data0, secret, data);
        return Err(UnhandledDataType);
    }
    assert stages[..|stages|] == stages;
    return Err(NoBaseMessage);
  }

  // ---------------------------------------------------------------------
  // Round trip
  // ---------------------------------------------------------------------

  /** A stage undoes itself under `secret`: what its Construct made of a
      message, its Deconstruct turns back into that message, and what it
      made of bytes it turns back into those bytes. */
  ghost predicate Reverses(stage: Stage, secret: Bytes)
  {
    && (forall m :: stage.construct(FromBase(m), secret).Ok? ==>
          Step(stage, stage.construct(FromBase(m), secret).value, secret) == Stop(Ok(m)))
    && (forall b :: stage.construct(FromBytes(b), secret).Ok? ==>
          Step(stage, stage.construct(FromBytes(b), secret).value, secret) == Next(b))
  }

  lemma {:induction false} UnwrapBytes(stages: seq<Stage>, data: Bytes, secret: Bytes)
    requires forall i :: 0 <= i < |stages| ==> Reverses(stages[i], secret)
    requires Outbound(stages, FromBytes(data), secret).Ok?
    ensures Inbound(stages, Outbound(stages, FromBytes(data), secret).value, secret) == Next(data)
  {
    if |stages| > 0 {
      var n := |stages|;
      var last := stages[n - 1];
      var front := stages[..n - 1];
      var e := last.construct(FromBytes(data), secret).value;
      assert Reverses(last, secret);
      UnwrapBytes(front, e, secret);
      var out := Outbound(stages, FromBytes(data), secret).value;
      assert front + [last] == stages;
      InboundSplits(front, [last], out, secret);
      assert [last][1..] == [];
    }
  }

  /** Deconstruct undoes Construct when every stage undoes itself. */
  lemma RoundTrip(stages: seq<Stage>, msg: Base, secret: Bytes)
    requires |stages| > 0
    requires forall i :: 0 <= i < |stages| ==> Reverses(stages[i], secret)
    requires Construct(stages, msg, secret).Ok?
    ensures Deconstruct(stages, Construct(stages, msg, secret).value, secret) == Ok(msg)
  {
    var n := |stages|;
    var last := stages[n - 1];
    var front := stages[..n - 1];
    var e := last.construct(FromBase(msg), secret).value;
    assert Reverses(last, secret);
    UnwrapBytes(front, e, secret);
    var out := Construct(stages, msg, secret).value;
    assert front + [last] == stages;
    InboundSplits(front, [last], out, secret);
  }
}

=== FILE: strings.dfy ===
/** The parts of Go's `strings` and `strconv` packages, and of the
    `[]byte(string)` conversion, that the TCP client relies on. */
module Strings {
  import opened Wrappers

  /** An octet (Go's `byte`). */
  newtype byte = x: int | 0 <= x < 256

  type Bytes = seq<byte>

  /** Lower-cases one rune for comparison against an ASCII key.
      Go's `strings.ToLower` applies the Unicode simple lower-case mapping
      rune by rune; the only runes it maps into ASCII are 'A'..'Z',
      U+0130 (to 'i') and U+212A (to 'k'). Every other non-ASCII rune is
      left alone here and mapped to a non-ASCII rune by Go, so a comparison
      of the lowered text with an ASCII key has the same outcome either way. */
  function LowerRune(c: char): char
  {
    if 'A' <= c <= 'Z' then (c as int + 32) as char
    else if c == '\U{0130}' then 'i'
    else if c == '\U{212A}' then 'k'
    else c
  }

  function ToLower(s: string): string
  {
    seq(|s|, i requires 0 <= i < |s| => LowerRune(s[i]))
  }

  /** Concatenates `parts` with `sep` between neighbours; the inverse of `Split`. */
  function Join(parts: seq<string>, sep: char): string
    requires |parts| > 0
  {
    if |parts| == 1 then parts[0] else parts[0] + [sep] + Join(parts[1..], sep)
  }

  /** `strings.Split(s, string(sep))`: the maximal sep-free pieces of `s`, in
      order; the empty string splits into one empty piece. */
  function Split(s: string, sep: char): (parts: seq<string>)
    ensures |parts| > 0
    ensures forall i :: 0 <= i < |parts| ==> sep !in parts[i]
    ensures Join(parts, sep) == s
  {
    if |s| == 0 then [""]
    else
      var rest := Split(s[1..], sep);
      if s[0] == sep then
        var parts := [""] + rest;
        assert parts[1..] == rest;
        parts
      else
        var parts := [[s[0]] + rest[0]] + rest[1..];
        assert |rest| > 1 ==> parts[1..] == rest[1..] && Join(rest, sep) == rest[0] + [sep] + Join(rest[1..], sep);
        parts
  }

  /** The number of occurrences of `c` in `s`. */
  function Count(s: string, c: char): nat
  {
    if |s| == 0 then 0 else (if s[0] == c then 1 else 0) + Count(s[1..], c)
  }

  /** Splitting yields one piece more than there are separators. */
  lemma {:induction false} SplitCount(s: string, sep: char)
    ensures |Split(s, sep)| == Count(s, sep) + 1
  {
    if |s| > 0 {
      SplitCount(s[1..], sep);
    }
  }

  predicate IsDigit(c: char)
  {
    '0' <= c <= '9'
  }

  function DigitChar(d: nat): (c: char)
    requires d < 10
    ensures IsDigit(c) && c as int - '0' as int == d
  {
    ('0' as int + d) as char
  }

  predicate AllDigits(s: string)
  {
    forall i :: 0 <= i < |s| ==> IsDigit(s[i])
  }

  /** The value of a string of decimal digits (the reference reading of
      what `strconv.Itoa` writes). */
  function DecimalValue(s: string): nat
    requires AllDigits(s)
  {
    if |s| == 0 then 0
    else
      var last := s[|s| - 1];
      assert IsDigit(last);
      10 * DecimalValue(s[..|s| - 1]) + (last as int - '0' as int)
  }

  /** A non-empty digit string without superfluous leading zeros. */
  predicate Canonical(d: string)
  {
    |d| > 0 && AllDigits(d) && (d[0] == '0' ==> d == "0")
  }

  /** A canonical numeral, negative ones prefixed by '-'. */
  predicate IsDecimal(s: string)
  {
    Canonical(s) || (|s| > 1 && s[0] == '-' && Canonical(s[1..]) && s[1..] != "0")
  }

  function SignedValue(s: string): int
    requires IsDecimal(s)
  {
    if s[0] == '-' then -(DecimalValue(s[1..]) as int) else DecimalValue(s)
  }

  /** The decimal digits of `n`, most significant first. */
  function Digits(n: nat): (r: string)
    ensures Canonical(r)
    ensures r == "0" <==> n == 0
    ensures DecimalValue(r) == n
    decreases n
  {
    if n < 10 then [DigitChar(n)]
    else
      var r := Digits(n / 10) + [DigitChar(n % 10)];
      assert r[..|r| - 1] == Digits(n / 10);
      r
  }

  /** `strconv.Itoa`: the canonical decimal numeral of `n`. */
  function Itoa(n: int): (r: string)
    ensures IsDecimal(r) && SignedValue(r) == n
  {
    if n < 0 then
      var r := "-" + Digits(-n);
      assert r[1..] == Digits(-n);
      r
    else Digits(n)
  }

  /** The UTF-8 encoding of one code point. */
  function EncodeRune(c: char): (r: Bytes)
    ensures 1 <= |r| <= 4
    ensures |r| == 1 <==> c as int < 0x80
    ensures |r| == 1 ==> r[0] as int == c as int
  {
    var n := c as int;
    if n < 0x80 then [n as byte]
    else if n < 0x800 then [(0xC0 + n / 0x40) as byte, (0x80 + n % 0x40) as byte]
    else if n < 0x1_0000 then
      [(0xE0 + n / 0x1000) as byte, (0x80 + n / 0x40 % 0x40) as byte, (0x80 + n % 0x40) as byte]
    else
      [(0xF0 + n / 0x4_0000) as byte, (0x80 + n / 0x1000 % 0x40) as byte,
       (0x80 + n / 0x40 % 0x40) as byte, (0x80 + n % 0x40) as byte]
  }

  /** `[]byte(s)`: the UTF-8 encoding of `s`. */
  function Utf8(s: string): (r: Bytes)
    ensures |r| >= |s|
    ensures |s| > 0 ==> |r| > 0
    ensures |r| == |s| <==> forall i :: 0 <= i < |s| ==> s[i] as int < 0x80
    ensures |r| == |s| ==> forall i :: 0 <= i < |s| ==> r[i] as int == s[i] as int
  {
    if |s| == 0 then []
    else
      var r := EncodeRune(s[0]) + Utf8(s[1..]);
      assert forall i :: 1 <= i < |s| ==> s[1..][i - 1] == s[i];
      r
  }

  /** A continuation byte of a multi-byte UTF-8 sequence: 10xxxxxx. */
  predicate Continues(b: byte)
  {
    0x80 <= b < 0xC0
  }

  /** A code point Dafny's `char` can hold: a Unicode scalar value. */
  predicate IsScalar(n: int)
  {
    0 <= n < 0xD800 || 0xE000 <= n < 0x11_0000
  }

  /** Decodes the first code point of `b` and says how many bytes it took,
      or `None` when `b` does not start with a well-formed sequence. */
  function DecodeRune(b: Bytes): (r: Option<(char, nat)>)
    ensures r.Some? ==> 1 <= r.value.1 <= |b| && r.value.1 <= 4
  {
    if |b| == 0 then None
    else
      var b0 := b[0] as int;
      if b0 < 0x80 then Some((b0 as char, 1))
      else if 0xC0 <= b0 < 0xE0 && |b| >= 2 && Continues(b[1]) then
        var n := (b0 - 0xC0) * 0x40 + (b[1] as int - 0x80);
        if 0x80 <= n then Some((n as char, 2)) else None
      else if 0xE0 <= b0 < 0xF0 && |b| >= 3 && Continues(b[1]) && Continues(b[2]) then
        var n := (b0 - 0xE0) * 0x1000 + (b[1] as int - 0x80) * 0x40 + (b[2] as int - 0x80);
        if 0x800 <= n && IsScalar(n) then Some((n as char, 3)) else None
      else if 0xF0 <= b0 < 0xF8 && |b| >= 4 && Continues(b[1]) && Continues(b[2]) && Continues(b[3]) then
        var n := (b0 - 0xF0) * 0x4_0000 + (b[1] as int - 0x80) * 0x1000 + (b[2] as int - 0x80) * 0x40 + (b[3] as int - 0x80);
        if 0x1_0000 <= n && IsScalar(n) then Some((n as char, 4)) else None
      else None
  }

  /** Decodes well-formed UTF-8 into the text it encodes. */
  function DecodeUtf8(b: Bytes): Option<string>
    decreases |b|
  {
    if |b| == 0 then Some("")
    else
      match DecodeRune(b)
      case None => None
      case Some((c, k)) =>
        match DecodeUtf8(b[k..])
        case None => None
        case Some(rest) => Some([c] + rest)
  }

  /** Splitting a code point into 6-bit groups and putting them back
      together gives the code point. */
  lemma SixBitGroups(n: nat)
    ensures n / 0x40 * 0x40 + n % 0x40 == n
    ensures n / 0x1000 * 0x1000 + n / 0x40 % 0x40 * 0x40 + n % 0x40 == n
    ensures n / 0x4_0000 * 0x4_0000 + n / 0x1000 % 0x40 * 0x1000 + n / 0x40 % 0x40 * 0x40 + n % 0x40 == n
  {
    var q := n / 0x40;
    assert q / 0x40 == n / 0x1000;
    assert q / 0x1000 == n / 0x4_0000;
    assert q / 0x40 * 0x40 + q % 0x40 == q;
    assert q / 0x1000 * 0x1000 + q / 0x40 % 0x40 * 0x40 + q % 0x40 == q by {
      var p := q / 0x40;
      assert p / 0x40 == q / 0x1000;
      assert p / 0x40 * 0x40 + p % 0x40 == p;
    }
  }

  /** The decoder reads back each code point the encoder wrote, whatever
      follows it. */
  lemma DecodeEncodeRune(c: char, rest: Bytes)
    ensures DecodeRune(EncodeRune(c) + rest) == Some((c, |EncodeRune(c)|))
  {
    var n := c as int;
    SixBitGroups(n);
    var b := EncodeRune(c) + rest;
    if n < 0x80 {
    } else if n < 0x800 {
      assert b[0] as int - 0xC0 == n / 0x40 && b[1] as int - 0x80 == n % 0x40;
    } else if n < 0x1_0000 {
      assert b[0] as int - 0xE0 == n / 0x1000;
      assert b[1] as int - 0x80 == n / 0x40 % 0x40 && b[2] as int - 0x80 == n % 0x40;
    } else {
      assert b[0] as int - 0xF0 == n / 0x4_0000;
      assert b[1] as int - 0x80 == n / 0x1000 % 0x40;
      assert b[2] as int - 0x80 == n / 0x40 % 0x40 && b[3] as int - 0x80 == n % 0x40;
    }
  }

  /** `[]byte(s)` loses nothing: decoding it gives `s` back. */
  lemma {:induction false} Utf8RoundTrip(s: string)
    ensures DecodeUtf8(Utf8(s)) == Some(s)
  {
    if |s| > 0 {
      var rest := Utf8(s[1..]);
      DecodeEncodeRune(s[0], rest);
      assert (EncodeRune(s[0]) + rest)[|EncodeRune(s[0])|..] == rest;
      Utf8RoundTrip(s[1..]);
      assert [s[0]] + s[1..] == s;
    }
  }

  /** Different texts have different byte forms. */
  lemma Utf8Injective(s: string, t: string)
    requires Utf8(s) == Utf8(t)
    ensures s == t
  {
    Utf8RoundTrip(s);
    Utf8RoundTrip(t);
  }
}

=== FILE: wrappers.dfy ===
/** Optional values and results with an error, in place of Go's nil
    values and `(value, error)` pairs. */
module Wrappers {

  /** A value that may be absent (nil in Go). */
  datatype Option<+T> = None | Some(value: T)

  /** Either a value or an error. */
  datatype Result<+R, +E> = Ok(value: R) | Err(error: E)
}
